=== FILE: README.md ===
# Composable capability registry of a FastMCP server, in Dafny

This project models how a FastMCP server (`src/fastmcp/server/server.py`)
composes tools, resources, resource templates and prompts from several
servers, and proves properties of that model.

- **Naming.** A `MountedServer` binding adds a prefix and a separator to
  every name of a mounted server. It also matches names against that
  prefix and strips it. The separator defaults to `_` for tools and
  prompts and to `+` for resources and templates.
- **Listing.** `get_tools`, `get_resources`, `get_resource_templates` and
  `get_prompts` merge each mount's prefixed listing in mount order, then
  merge the local registry over them. The result is stored in a
  `TimedCache` whose entries expire.
- **Dispatch.** `_mcp_call_tool`, `_mcp_read_resource` and
  `_mcp_get_prompt` look in the local registry first. Otherwise they ask
  the first mount whose prefix matches, with the prefix removed, and
  otherwise they fail with NotFound.
- **Mutations.** `add_tool`, `add_resource`, `add_resource_fn`,
  `add_prompt`, `mount`, `unmount` and `import_server` each change the
  server and then clear that server's own cache.

Servers are shared objects in the source. Here they are entries of a store
`map<Id, Server>`, so mounting refers to another entry by address. Every
operation is a pure function on that store. A listing returns the listing
together with the store whose caches it filled. The clock is an explicit
`now` parameter.

Files, one module each:

- `wrappers.dfy`: `Option` and `Result`.
- `prefixes.dfy`: `str.startswith` and `str.removeprefix`.
- `items.dfy`: keys, categories, errors and the leaf registries.
- `timed_cache.dfy`: `TimedCache`.
- `mounted_server.dfy`: `MountedServer`.
- `servers.dfy`: the server state and the store.
- `listing.dfy`: two definitions of a listing.
  - `View` is the reference merge.
  - `List` is the cached listing the source runs.
- `dispatching.dfy`: dispatch.
- `mutations.dfy`: registration, `mount`, `unmount` and `import_server`.
- `composition.dfy`: how mutations interact with listing and dispatch.
- `scenarios.dfy`: small concrete compositions.

## Model

| member | source | states |
|---|---|---|
| `Prefixes.RemovePrefix` | src/fastmcp/server/server.py:114-115 | A string that starts with the prefix is the prefix followed by the result; any other string comes back unchanged. |
| `Prefixes.PrependThenRemove` | src/fastmcp/server/server.py:111-127 | A prefixed string starts with the prefix, and removing the prefix gives back exactly what was prefixed. |
| `Prefixes.CommonStart` | src/fastmcp/server/server.py:111-112 | Two prefixes of one key start one another; this is why overlapping mount prefixes can both match a key. |
| `TimedCache.Set` | src/fastmcp/server/server.py:135-137 | Set stores the value with expiry `now + expiration` under its key, overwrites any prior entry and leaves every other key's entry as it was. |
| `TimedCache.Get` | src/fastmcp/server/server.py:139-144 | Get returns a value exactly when an entry exists and its expiry is strictly later than `now`, and then returns the stored value; otherwise it returns NOT_FOUND. |
| `TimedCache.Clear` | src/fastmcp/server/server.py:146-147 | After `clear` every key reads as NOT_FOUND at every instant. |
| `TimedCache.GetAfterSet` | src/fastmcp/server/server.py:135-144 | Reading a key right after `set` returns the value while `now` is before the expiry and NOT_FOUND from then on; other keys read as before. |
| `TimedCache.ExpiredStaysExpired` | src/fastmcp/server/server.py:139-144 | Expiry is lazy but final: an entry that reads as NOT_FOUND keeps doing so at every later instant. |
| `Mounting.NewMount` | src/fastmcp/server/server.py:62-81 | An omitted separator becomes "_" for tools and prompts and "+" for resources and templates; a given separator is kept. |
| `Mounting.Prefixed` | src/fastmcp/server/server.py:83-109 | Every entry of the mounted listing appears under prefix+key with its value, and every key of the result is such a prefixed key. |
| `Mounting.RoundTrip` | src/fastmcp/server/server.py:111-127 | For every category, a prefixed name matches the binding, and stripping it gives back the original name. |
| `Mounting.MatchIsPrefixed` | src/fastmcp/server/server.py:111-127 | Conversely, a name that matches is the binding's full prefix followed by some name. |
| `Mounting.PrefixedViewAt` | src/fastmcp/server/server.py:83-109 | A name is in a binding's view exactly when it matches and its stripped form is in the mounted listing, and then it carries that entry. |
| `Mounting.MountedServer.Strip` | src/fastmcp/server/server.py:114-127 | `strip_*_prefix`: a matching name is the full prefix followed by the result; a name that does not match comes back unchanged. |
| `Mounting.MountedServer.PrefixedView` | src/fastmcp/server/server.py:83-109 | `MountedServer.get_*`: every entry of the mounted listing appears under the full prefix with its value, and every name of the result matches and strips to a listed name carrying that entry. |
| `Mounting.PrefixedSingleton` | src/fastmcp/server/server.py:83-109 | A listing with one entry is seen through the binding as exactly that entry under its prefixed name. |
| `Servers.NewServer` | src/fastmcp/server/server.py:191-215 | A new server has empty registries, no mounts, a cache that misses on every key, and the configured cache expiration. |
| `Listings.List` | src/fastmcp/server/server.py:288-332 | On a live cache entry the listing returns it and changes nothing. On a miss it caches its result with the server's expiration. That result holds every local entry with its value, and every key in it is local or carries some mount's prefix. Only caches change, and only for this category. |
| `Listings.ListMounts` | src/fastmcp/server/server.py:291-294 | The mount loop only fills caches of servers below this one, and every key it adds carries the prefix of a mount it visited. |
| `Listings.ViewKeys` | src/fastmcp/server/server.py:288-297 | A name is listed exactly when it is local or some mount contributes it, meaning its prefix is followed by a name the mounted server lists. |
| `Listings.ViewPrecedence` | src/fastmcp/server/server.py:291-295 | A local entry wins over every mount; otherwise the entry comes from the last mount in mount order that contributes the name. |
| `Listings.MountsViewKeys` | src/fastmcp/server/server.py:292-294 | After the first n mounts, the merge holds a name exactly when one of them contributes it. |
| `Listings.MountsViewLast` | src/fastmcp/server/server.py:292-294 | Within the mount loop, `dict.update` makes the last contributing mount's entry the one kept. |
| `Listings.ViewFrame` | src/fastmcp/server/server.py:288-297 | A listing depends only on the servers reachable through mounts, and only on their mounts and their registry of that category. |
| `Listings.ListIsView` | src/fastmcp/server/server.py:288-332 | When every live cache entry holds the reference merge, the cached listing returns exactly the reference merge and leaves the caches in that state. |
| `Listings.ListMountsFromCaches` | src/fastmcp/server/server.py:290-293 | When every mounted server holds a live entry, the mount loop merges those entries under their prefixes, later mount winning, and changes no cache. |
| `Listings.ListFromLiveMounts` | src/fastmcp/server/server.py:288-297 | A listing that misses its own cache while every mounted server holds a live entry returns exactly those entries merged under their prefixes, later mount winning, with the local registry last, even when those entries are stale. |
| `Listings.ListCached` | src/fastmcp/server/server.py:288-297 | After a miss, asking again before the expiry returns the same listing and changes nothing. |
| `Dispatching.Dispatch` | src/fastmcp/server/server.py:375-433 | A local name resolves to the local entry. A name that no mount matches fails with NotFound. Any success names an entry really registered at this server or below it. |
| `Dispatching.DispatchMounts` | src/fastmcp/server/server.py:386-391 | The mount loop fails with NotFound when no remaining mount matches; its successes are registered entries. |
| `Dispatching.DispatchFirstMatch` | src/fastmcp/server/server.py:386-389 | A non-local name goes to the first matching mount with the prefix stripped, whatever later mounts would match too. |
| `Dispatching.DispatchSkip` | src/fastmcp/server/server.py:386-387 | Mounts that do not match are passed over. |
| `Dispatching.FirstMatchFrom` | src/fastmcp/server/server.py:386-389 | When some mount matches, there is a first one. |
| `Dispatching.DispatchSound` | src/fastmcp/server/server.py:375-391 | Every name that dispatch resolves is in the reference listing. |
| `Dispatching.OnlyMatch` | src/fastmcp/server/server.py:111-127 | When no mount prefix of a server starts another, at most one mount matches any name. |
| `Dispatching.DispatchMatchesView` | src/fastmcp/server/server.py:375-391 | With such unambiguous prefixes, a name resolves exactly when it is listed, and it resolves to the listed entry. |
| `Dispatching.NoMatchNotListed` | src/fastmcp/server/server.py:288-297 | A name that is neither local nor matched by a mount is not listed. |
| `Dispatching.ViewThroughOnlyMatch` | src/fastmcp/server/server.py:291-295 | Under unambiguous prefixes, a name matched by one mount is listed exactly when the mounted server lists its stripped form, with that entry. |
| `Dispatching.ReadResource` | src/fastmcp/server/server.py:393-414 | A read succeeds exactly when dispatch finds the resource and its read produces content. A failing local read becomes ResourceError with the exception's message. A failed dispatch comes back as is, and a URI neither local nor matched is NotFound naming it. A non-local URI is read through the first matching mount's own read, with the prefix removed. |
| `Dispatching.CallTool` | src/fastmcp/server/server.py:375-391 | A local tool is the one called; any tool found is listed; failures are NotFound, naming the key when no mount matches. A non-local key goes to the first matching mount's own call, with the prefix removed. |
| `Dispatching.GetPrompt` | src/fastmcp/server/server.py:416-433 | A local prompt is the one rendered; any prompt found is listed; failures are NotFound, naming the prompt when no mount matches. A non-local name goes to the first matching mount's own request, with the prefix removed. |
| `Mutations.Replace` | src/fastmcp/server/server.py:456 | Changing a server's registries or mounts keeps the store valid, keeps its expiration, empties its cache and leaves every other server as it was. |
| `Mutations.AddItem` | src/fastmcp/server/server.py:435-456 | The registry of the category gains the key with its item and the other registries and mounts are unchanged. Only this server's cache is cleared; every other server is unchanged. |
| `Mutations.AddTool` | src/fastmcp/server/server.py:435-456 | `add_tool` registers the tool, leaves the resource, template and prompt registries unchanged, and clears the own cache. |
| `Mutations.AddResource` | src/fastmcp/server/server.py:504-512 | `add_resource` registers the resource, leaves the other registries unchanged, and clears the own cache. |
| `Mutations.AddResourceFn` | src/fastmcp/server/server.py:514-544 | `add_resource_fn` registers a template when the function is templated and a resource otherwise, and clears the own cache. |
| `Mutations.AddPrompt` | src/fastmcp/server/server.py:612-630 | `add_prompt` registers the prompt, leaves the other registries unchanged, and clears the own cache. |
| `Mutations.FindPrefix` | src/fastmcp/server/server.py:754 | The position of the binding with the prefix, or none exactly when no binding has it. |
| `Mutations.PutMount` | src/fastmcp/server/server.py:754 | Dict assignment keeps an existing prefix in its place with the new binding and appends a new prefix at the end; prefixes stay distinct. |
| `Mutations.RemoveMount` | src/fastmcp/server/server.py:758 | `dict.pop` fails exactly when no binding has the prefix. Otherwise it removes that binding only, keeps the others in their order, and leaves prefixes distinct. |
| `Mutations.Mount` | src/fastmcp/server/server.py:736-755 | `mount` replaces an existing binding for the prefix in place or appends a new one, keeps the registries, and clears only the own cache. |
| `Mutations.Unmount` | src/fastmcp/server/server.py:757-759 | `unmount` fails with the KeyError, changing nothing, exactly when the prefix is not mounted. Otherwise it removes that binding, keeps the others in their order and the registries, and clears only the own cache. |
| `Items.Locals.AddAll` | src/fastmcp/server/server.py:810-826 | Registering a batch under keys: the registry's names become the old ones plus the new, a new entry overwrites an old one of the same name, other old entries stay, and other registries are untouched. |
| `Mutations.ImportCategory` | src/fastmcp/server/server.py:810-826 | One import loop changes only the importing server's registry of its category, plus caches of that category. |
| `Mutations.ImportAll` | src/fastmcp/server/server.py:810-826 | The import loops change only the importing server's registries of the categories they visit, plus caches. |
| `Mutations.Import` | src/fastmcp/server/server.py:761-833 | `import_server` changes only the importing server's registries, then leaves its cache empty. |
| `Composition.ImportCategoryView` | src/fastmcp/server/server.py:810-826 | On a coherent store, one import loop merges the imported server's listing, under the full prefix, over the importing server's registry. |
| `Composition.ImportCategoryCarries` | src/fastmcp/server/server.py:810-826 | An import loop leaves every other category listed the same and coherent. |
| `Composition.ImportAllView` | src/fastmcp/server/server.py:810-826 | On a coherent store, after the loops every visited category's registry is the old one with the imported listing merged over it. |
| `Composition.ImportCopies` | src/fastmcp/server/server.py:761-833 | On a coherent store, `import_server` merges every listing of the imported server, under the prefix and defaulted separators, into the importing server's own registries. |
| `Composition.EditKeepsCoherent` | src/fastmcp/server/server.py:456 | Any edit that changes one server and clears its cache keeps every live cache entry equal to the reference merge, provided no server mounts the edited one. |
| `Composition.AddItemKeepsCoherent` | src/fastmcp/server/server.py:435-456 | Registering at a server that nobody mounts keeps every cache coherent. |
| `Composition.ImportCategoryAway` | src/fastmcp/server/server.py:810-826 | One import loop on a store coherent for its category leaves every cache entry of that category coherent except the importing server's own, when nobody mounts the importing server. |
| `Composition.ImportCategoryKeepsAway` | src/fastmcp/server/server.py:810-826 | An import loop leaves every other category's cache entries coherent outside the importing server. |
| `Composition.ImportAllAway` | src/fastmcp/server/server.py:810-826 | After the import loops every category's cache entries are coherent outside the importing server. |
| `Composition.ImportKeepsCoherent` | src/fastmcp/server/server.py:761-833 | `import_server` at a server that nobody mounts keeps every cache coherent: the listings it takes fill caches coherently, and its closing `_cache.clear()` removes the importing server's own stale entries. |
| `Composition.MountIsLive` | src/fastmcp/server/server.py:736-755 | A name registered at a mounted server after mounting is dispatched there from the parent at once, under the full prefix, if it is the first matching mount and the parent has no local entry of that name. |
| `Composition.ImportIsSnapshot` | src/fastmcp/server/server.py:773-776 | Registering more at an imported server changes neither the importing server nor anything it lists, unless it also reaches that server through mounts. |
| `Composition.ImportThenRegister` | src/fastmcp/server/server.py:773-776 | After `import_server`, registering at the imported server changes neither the importing server nor its listing, unless it also reaches the imported server through mounts. |
| `Composition.ExpiredListIsView` | src/fastmcp/server/server.py:288-297 | Once every cache entry of a category has expired, a listing computes the reference merge again. |
| `Composition.ParentListingGoesStale` | src/fastmcp/server/server.py:456 | After a registration at a mounted server, a parent with a live cache entry still lists without the new name. The reference merge lists it, and dispatch resolves it. |
| `Scenarios.OverlappingPrefixesDisagree` | src/fastmcp/server/server.py:288-297 | With mounts "a" and "a_b", "a_b_x" is dispatched through "a", the first match, but listed with the entry from "a_b", the last contributor. |
| `Scenarios.CalculatorMount` | src/fastmcp/server/server.py:375-391 | A tool "add" mounted under "calc" is listed and called as "calc_add"; "add" itself is not found at the parent. |
| `Scenarios.ExtResourceName` | src/fastmcp/server/server.py:816-818 | Under "ext" with the default separator, a resource name gains the prefix "ext+". |
| `Scenarios.ImportOneResource` | src/fastmcp/server/server.py:816-818 | Importing a server that lists one resource under "ext" registers it as "ext+" followed by its name at the importing server. |

## Left out

- Transport, lifespans, `run`/`run_async`, the MCP wire conversions of `_mcp_list_*`, context creation and logging are I/O around the core; they are not modelled.
- Tools, resources and prompts are opaque integers, and running a tool or rendering a prompt is not modelled. A resource read is a parameter `read` that returns content or an exception message.
- The tool, resource and prompt managers are maps. Their duplicate policy (`on_duplicate_*`) is modelled as overwrite. `has_resource` is membership in the resource map; URI template matching inside the resource manager is not modelled. The managers' source is not part of this model.
- `Mutations.AddResourceFn`: whether the function becomes a template is given as the parameter `isTemplate`, because that decision belongs to the resource manager.
- The cache is keyed by `Category` rather than by the strings "tools", "resources", "resource_templates" and "prompts". The four are distinct either way.
- `Mutations.Mount`: requires the mounted server to have a smaller id than the mounting one. This ranking makes every listing and dispatch terminate. The source accepts any server. Through a mount cycle, listing (`get_tools` and its siblings, and so `import_server`) re-enters before its cache is set and recurses without end once no server on the cycle holds a live cache entry for that category; dispatch strips the prefix and separator at every hop and so ends unless both are empty.
- Decorators (`tool`, `resource`, `prompt`) only build arguments for the modelled registration calls; they are not modelled.
- `from_openapi`, `from_fastapi` and `from_client` (server.py:835-873) construct other kinds of server (`FastMCPOpenAPI`, `FastMCPProxy`) and, for FastAPI, an HTTP client; those classes are not part of this model.
- Concurrency is not modelled: the model is sequential. That includes the interleaving of an in-flight listing with a cache clear.
- The clock is the parameter `now`. One listing call happens at one instant, and so do the four listings that one `import_server` takes (`Mutations.Import` passes the same `now` to each).
- `Composition.ImportCopies`: proved only when every live cache entry is coherent. On a stale cache, import copies the stale listing, as the source does.
- `Composition.MountIsLive`: states live dispatch, not live listing. A parent's cached listing does not catch up while its own entry is live (`Composition.ParentListingGoesStale`). Its entry expiring or being cleared is not enough either: the next listing copies whatever live entries the servers in between still hold (`Listings.ListFromLiveMounts`), so it catches up only once every entry on the path down to the changed server has expired or been cleared.
- `Listings.List`: on a cache miss, the result is stated exactly in two cases. `Listings.ListIsView` covers a store whose live entries all hold the reference merge; `Listings.ListFromLiveMounts` covers every mount answering from a live entry, stale or not. When some mounts miss and stale entries sit further down, the result is stated only through `Listings.List`'s own contract (locals win, every key local or prefixed), because the mount loop's threading of caches has no simpler closed form.

Three behaviours of the code that the model follows and that a reader might not expect:

- A mutation clears only the mutating server's own cache (server.py:456, 512, 544, 630, 755, 759, 833). `Composition.EditKeepsCoherent` proves coherence survives an edit when no server mounts the edited one, and `Composition.ImportKeepsCoherent` proves the same for `import_server`. `Composition.ParentListingGoesStale` shows that a parent's listing goes stale otherwise.
- A nested server raises NotFound itself, naming the name it received, which is stripped of the prefix. `Dispatching.Dispatch` returns that stripped name.
- Listing keeps the last contributing mount (`dict.update`), while dispatch takes the first match. They agree when no mount prefix starts another (`Dispatching.DispatchMatchesView`); `Scenarios.OverlappingPrefixesDisagree` shows them differ.

=== FILE: composition.dfy ===
/** How registration, mounting and importing interact with listing and
    dispatch: what an import copies, which caches an edit leaves coherent,
    and the difference between a live mount and a one-time import
    (src/fastmcp/server/server.py:736-833). */
module Composition {
  import opened Wrappers
  import opened Items
  import opened Mounting
  import opened Servers
  import opened Listings
  import opened Dispatching
  import opened Mutations
  import TimedCache

  /** What one import loop registers, on a coherent store: the imported
      server's reference listing of `cat` under the binding's full prefix,
      merged over the registry (an imported key overwrites a local one). */
  lemma ImportCategoryView(store: Store, id: Id, m: MountedServer, cat: Category, now: int)
    requires Valid(store) && id in store && m.server in store && CoherentFor(store, cat, now)
    ensures ImportCategory(store, id, m, cat, now)[id].locals.Get(cat) ==
              store[id].locals.Get(cat) + m.PrefixedView(cat, View(store, m.server, cat))
  {
    ListIsView(store, m.server, cat, now);
  }

  /** An import loop for `cat` leaves every other category listed the same
      and still coherent. */
  lemma ImportCategoryCarries(store: Store, id: Id, m: MountedServer, cat: Category, c: Category, now: int)
    requires Valid(store) && id in store && m.server in store && c != cat && CoherentFor(store, c, now)
    ensures var r := ImportCategory(store, id, m, cat, now);
            SameFor(store, r, c) && CoherentFor(r, c, now)
  {
    var r := ImportCategory(store, id, m, cat, now);
    assert SameFor(store, r, c);
    forall x | x in store
      ensures TimedCache.SameEntry(store[x].cache, r[x].cache, c)
    {
    }
    CoherentTransfer(store, r, c, now);
  }

  /** No category occurs twice in `cats`. */
  predicate Distinct(cats: seq<Category>) {
    forall i, j :: 0 <= i < j < |cats| ==> cats[i] != cats[j]
  }

  lemma DistinctTail(cats: seq<Category>)
    requires Distinct(cats) && |cats| > 0
    ensures Distinct(cats[1..]) && cats[0] !in cats[1..]
    ensures forall c :: c in cats ==> c == cats[0] || c in cats[1..]
  {
    forall j | 0 <= j < |cats| - 1
      ensures cats[1..][j] != cats[0]
    {
      assert cats[1..][j] == cats[j + 1];
    }
  }

  lemma ImportAllUnfold(store: Store, id: Id, m: MountedServer, cats: seq<Category>, now: int)
    requires Valid(store) && id in store && m.server in store && |cats| > 0
    ensures ImportAll(store, id, m, cats, now) ==
              ImportAll(ImportCategory(store, id, m, cats[0], now), id, m, cats[1..], now)
  {
  }

  /** An import loop for `cat` keeps every other category's listing,
      registry at `id` and coherence. */
  lemma ImportCarriesRest(store: Store, id: Id, m: MountedServer, cat: Category, rest: seq<Category>, now: int)
    requires Valid(store) && id in store && m.server in store && cat !in rest
    requires forall c :: c in rest ==> CoherentFor(store, c, now)
    ensures var s1 := ImportCategory(store, id, m, cat, now);
            forall c :: c in rest ==>
              && CoherentFor(s1, c, now) && View(s1, m.server, c) == View(store, m.server, c)
              && s1[id].locals.Get(c) == store[id].locals.Get(c)
  {
    var s1 := ImportCategory(store, id, m, cat, now);
    forall c | c in rest
      ensures CoherentFor(s1, c, now) && View(s1, m.server, c) == View(store, m.server, c)
    {
      ImportCategoryCarries(store, id, m, cat, c, now);
      ViewSameFor(store, s1, m.server, c);
    }
  }

  lemma {:induction false} ImportAllView(store: Store, id: Id, m: MountedServer, cats: seq<Category>, now: int)
    requires Valid(store) && id in store && m.server in store && Distinct(cats)
    requires forall c :: c in cats ==> CoherentFor(store, c, now)
    ensures forall c :: c in cats ==>
              ImportAll(store, id, m, cats, now)[id].locals.Get(c) ==
                store[id].locals.Get(c) + m.PrefixedView(c, View(store, m.server, c))
    decreases |cats|
  {
    if |cats| > 0 {
      DistinctTail(cats);
      ImportAllUnfold(store, id, m, cats, now);
      ImportCategoryView(store, id, m, cats[0], now);
      ImportCarriesRest(store, id, m, cats[0], cats[1..], now);
      ImportAllView(ImportCategory(store, id, m, cats[0], now), id, m, cats[1..], now);
    }
  }

  /** `import_server` visits every category, each once. */
  lemma ImportOrderComplete()
    ensures Distinct(ImportOrder) && forall c :: c in ImportOrder
  {
    forall c ensures c in ImportOrder {
      match c
      case Tools => assert ImportOrder[0] == c;
      case Resources => assert ImportOrder[1] == c;
      case Templates => assert ImportOrder[2] == c;
      case Prompts => assert ImportOrder[3] == c;
    }
  }

  /** Import copies: on a coherent store, `import_server` leaves every
      registry of the importing server holding what it held before merged
      with the imported server's listing of that category under the
      binding's full prefix (separator defaults as for `mount`). */
  lemma ImportCopies(store: Store, id: Id, prefix: string, source: Id,
                     toolSeparator: Option<string>, resourceSeparator: Option<string>,
                     promptSeparator: Option<string>, now: int)
    requires Valid(store) && id in store && source in store && Coherent(store, now)
    ensures var m := NewMount(prefix, source, toolSeparator, resourceSeparator, promptSeparator);
            var r := Import(store, id, prefix, source, toolSeparator, resourceSeparator, promptSeparator, now);
            forall c :: r[id].locals.Get(c) == store[id].locals.Get(c) + m.PrefixedView(c, View(store, source, c))
  {
    var m := NewMount(prefix, source, toolSeparator, resourceSeparator, promptSeparator);
    ImportOrderComplete();
    ImportAllView(store, id, m, ImportOrder, now);
  }

  /** No server of the store mounts `y`. */
  ghost predicate NotMounted(store: Store, y: Id) {
    forall x, i :: x in store && 0 <= i < |store[x].mounts| ==> store[x].mounts[i].server != y
  }

  /** A server nobody mounts is reached from no other server. */
  lemma {:induction false} UnmountedUnreached(store: Store, x: Id, y: Id)
    requires Valid(store) && x in store && x != y && NotMounted(store, y)
    ensures !Reaches(store, x, y)
    decreases x
  {
    forall i | 0 <= i < |store[x].mounts|
      ensures !Reaches(store, store[x].mounts[i].server, y)
    {
      UnmountedUnreached(store, store[x].mounts[i].server, y);
    }
  }

  /** Cache coherence across an edit: an operation that changes server `id`
      and clears its cache (as every registration, `mount` and `unmount`
      does) keeps every listing cache coherent as long as no server mounts
      `id`. `import_server` also fills caches below `id`; it is covered by
      `ImportKeepsCoherent`. Only the own cache is cleared, so a server that
      mounts `id` may keep a stale listing until it expires. */
  lemma EditKeepsCoherent(store: Store, r: Store, id: Id, cat: Category, now: int)
    requires Valid(store) && Valid(r) && id in store && EditedAt(store, r, id)
    requires NotMounted(store, id) && CoherentFor(store, cat, now)
    ensures CoherentFor(r, cat, now)
  {
    forall x | x in r && TimedCache.Get(r[x].cache, cat, now).Some?
      ensures TimedCache.Get(r[x].cache, cat, now).value == View(r, x, cat)
    {
      assert x != id;
      forall y | y in store && Reaches(store, x, y)
        ensures y in r && r[y].mounts == store[y].mounts && r[y].locals.Get(cat) == store[y].locals.Get(cat)
      {
        if y == id {
          UnmountedUnreached(store, x, id);
        }
      }
      ViewFrame(store, r, x, cat);
    }
  }

  /** Registering at a server nobody mounts keeps every cache coherent. */
  lemma AddItemKeepsCoherent(store: Store, id: Id, cat: Category, key: Key, item: Item, c: Category, now: int)
    requires Valid(store) && id in store && NotMounted(store, id) && CoherentFor(store, c, now)
    ensures CoherentFor(AddItem(store, id, cat, key, item), c, now)
  {
    EditKeepsCoherent(store, AddItem(store, id, cat, key, item), id, c, now);
  }

  /** Every live cache entry of `cat` outside server `id` holds what a
      fresh listing would compute; `id`'s own entry may be stale. */
  ghost predicate CoherentAwayFrom(store: Store, id: Id, cat: Category, now: int)
    requires Valid(store)
  {
    forall x :: x in store && x != id && TimedCache.Get(store[x].cache, cat, now).Some? ==>
      TimedCache.Get(store[x].cache, cat, now).value == View(store, x, cat)
  }

  /** The import loop for `cat` on a store coherent for `cat`: the listing
      it takes keeps every cache coherent, and the registration at `id`
      that follows can make only `id`'s own entry stale, since nobody
      mounts `id`. */
  lemma ImportCategoryAway(store: Store, id: Id, m: MountedServer, cat: Category, now: int)
    requires Valid(store) && id in store && m.server in store
    requires NotMounted(store, id) && CoherentFor(store, cat, now)
    ensures var r := ImportCategory(store, id, m, cat, now);
            NotMounted(r, id) && CoherentAwayFrom(r, id, cat, now)
  {
    var s1 := List(store, m.server, cat, now).1;
    var r := ImportCategory(store, id, m, cat, now);
    ListIsView(store, m.server, cat, now);
    assert LocalsOnlyAt(s1, r, id) && forall x :: x in s1 ==> r[x].cache == s1[x].cache;
    forall x | x in r && x != id && TimedCache.Get(r[x].cache, cat, now).Some?
      ensures TimedCache.Get(r[x].cache, cat, now).value == View(r, x, cat)
    {
      forall y | y in s1 && Reaches(s1, x, y)
        ensures y in r && r[y].mounts == s1[y].mounts && r[y].locals.Get(cat) == s1[y].locals.Get(cat)
      {
        if y == id {
          UnmountedUnreached(s1, x, id);
        }
      }
      ViewFrame(s1, r, x, cat);
    }
  }

  /** An import loop for `cat` keeps another category's caches coherent
      away from `id`. */
  lemma ImportCategoryKeepsAway(store: Store, id: Id, m: MountedServer, cat: Category, c: Category, now: int)
    requires Valid(store) && id in store && m.server in store && c != cat
    requires CoherentAwayFrom(store, id, c, now)
    ensures CoherentAwayFrom(ImportCategory(store, id, m, cat, now), id, c, now)
  {
    var r := ImportCategory(store, id, m, cat, now);
    assert SameFor(store, r, c);
    assert forall x :: x in store ==> TimedCache.SameEntry(store[x].cache, r[x].cache, c);
    AwayTransfer(store, r, id, c, now);
  }

  /** Coherence away from `id` carries over to a store that lists `cat` the
      same way and holds the same cache entries for it. */
  lemma AwayTransfer(a: Store, b: Store, id: Id, cat: Category, now: int)
    requires Valid(a) && SameFor(a, b, cat) && CoherentAwayFrom(a, id, cat, now)
    requires forall x :: x in a ==> TimedCache.SameEntry(a[x].cache, b[x].cache, cat)
    ensures Valid(b) && CoherentAwayFrom(b, id, cat, now)
  {
    SameMountsValid(a, b);
    forall x | x in b && x != id && TimedCache.Get(b[x].cache, cat, now).Some?
      ensures TimedCache.Get(b[x].cache, cat, now).value == View(b, x, cat)
    {
      assert TimedCache.SameEntry(a[x].cache, b[x].cache, cat);
      ViewSameFor(a, b, x, cat);
    }
  }

  /** The import loops over `cats`: every category ends coherent away from
      `id`, given that those still to be visited start fully coherent. */
  lemma {:induction false} ImportAllAway(store: Store, id: Id, m: MountedServer, cats: seq<Category>, now: int)
    requires Valid(store) && id in store && m.server in store && Distinct(cats) && NotMounted(store, id)
    requires forall c :: c in cats ==> CoherentFor(store, c, now)
    requires forall c :: c !in cats ==> CoherentAwayFrom(store, id, c, now)
    ensures forall c :: CoherentAwayFrom(ImportAll(store, id, m, cats, now), id, c, now)
    decreases |cats|
  {
    if |cats| > 0 {
      var s1 := ImportCategory(store, id, m, cats[0], now);
      DistinctTail(cats);
      ImportAllUnfold(store, id, m, cats, now);
      ImportCategoryAway(store, id, m, cats[0], now);
      ImportCarriesRest(store, id, m, cats[0], cats[1..], now);
      forall c | c !in cats[1..]
        ensures CoherentAwayFrom(s1, id, c, now)
      {
        if c != cats[0] {
          ImportCategoryKeepsAway(store, id, m, cats[0], c, now);
        }
      }
      ImportAllAway(s1, id, m, cats[1..], now);
    }
  }

  /** `import_server` at a server nobody mounts keeps every cache coherent:
      the listings it takes fill caches coherently, the registrations can
      only make the importing server's own entries stale, and its closing
      `_cache.clear()` removes those. */
  lemma ImportKeepsCoherent(store: Store, id: Id, prefix: string, source: Id,
                            toolSeparator: Option<string>, resourceSeparator: Option<string>,
                            promptSeparator: Option<string>, now: int)
    requires Valid(store) && id in store && source in store
    requires NotMounted(store, id) && Coherent(store, now)
    ensures var r := Import(store, id, prefix, source, toolSeparator, resourceSeparator, promptSeparator, now);
            Coherent(r, now)
  {
    var m := NewMount(prefix, source, toolSeparator, resourceSeparator, promptSeparator);
    var s := ImportAll(store, id, m, ImportOrder, now);
    var r := Import(store, id, prefix, source, toolSeparator, resourceSeparator, promptSeparator, now);
    ImportOrderComplete();
    ImportAllAway(store, id, m, ImportOrder, now);
    assert r == WithCache(s, id, TimedCache.Clear(s[id].cache));
    forall c
      ensures CoherentFor(r, c, now)
    {
      forall x | x in r && TimedCache.Get(r[x].cache, c, now).Some?
        ensures TimedCache.Get(r[x].cache, c, now).value == View(r, x, c)
      {
        assert x != id;
        assert CoherentAwayFrom(s, id, c, now);
        ShapeIsSameFor(s, r, c);
        ViewSameFor(s, r, x, c);
      }
    }
  }

  /** A mount is live: once `child` is bound at position `i` of `id`, a key
      registered at `child` afterwards is dispatched there from `id` at once,
      under the binding's full prefix, provided `id` has no local entry of
      that name and no earlier binding matches it. */
  lemma MountIsLive(store: Store, id: Id, i: nat, cat: Category, k: Key, item: Item)
    requires Valid(store) && id in store && i < |store[id].mounts|
    requires var m := store[id].mounts[i];
             var key := m.FullPrefix(cat) + k;
             key !in store[id].locals.Get(cat) && FirstMatch(store, id, i, cat, key)
    ensures var m := store[id].mounts[i];
            var r := AddItem(store, m.server, cat, k, item);
            Dispatch(r, id, cat, m.FullPrefix(cat) + k) == Success(Resolved(m.server, k, item))
  {
    var m := store[id].mounts[i];
    var key := m.FullPrefix(cat) + k;
    var r := AddItem(store, m.server, cat, k, item);
    RoundTrip(m, cat, k);
    assert r[id] == store[id];
    DispatchFirstMatch(r, id, i, cat, key);
  }

  /** An import is a snapshot: once the imported server's entries are
      copied, registering more at it changes nothing the importing server
      lists, unless the importing server also reaches it through mounts. */
  lemma ImportIsSnapshot(store: Store, id: Id, source: Id, cat: Category, k: Key, item: Item, c: Category)
    requires Valid(store) && id in store && source in store && id != source
    requires !Reaches(store, id, source)
    ensures var r := AddItem(store, source, cat, k, item);
            r[id] == store[id] && View(r, id, c) == View(store, id, c)
  {
    var r := AddItem(store, source, cat, k, item);
    forall y | y in store && Reaches(store, id, y)
      ensures y in r && r[y].mounts == store[y].mounts && r[y].locals.Get(c) == store[y].locals.Get(c)
    {
      assert y != source;
    }
    ViewFrame(store, r, id, c);
  }

  /** Reachability reads only mounts: two stores with the same servers and
      the same mounts reach the same servers. */
  lemma {:induction false} ReachesSameMounts(a: Store, b: Store, x: Id, y: Id)
    requires Valid(a) && Valid(b) && x in a && a.Keys == b.Keys
    requires forall z :: z in a ==> b[z].mounts == a[z].mounts
    ensures Reaches(a, x, y) <==> Reaches(b, x, y)
    decreases x
  {
    forall i | 0 <= i < |a[x].mounts|
      ensures Reaches(a, a[x].mounts[i].server, y) <==> Reaches(b, a[x].mounts[i].server, y)
    {
      ReachesSameMounts(a, b, a[x].mounts[i].server, y);
    }
  }

  /** `import_server` followed by a registration at the imported server:
      the importing server and everything it lists stay as the import left
      them, unless it also reaches the imported server through mounts. */
  lemma ImportThenRegister(store: Store, id: Id, prefix: string, source: Id,
                           toolSeparator: Option<string>, resourceSeparator: Option<string>,
                           promptSeparator: Option<string>, now: int,
                           cat: Category, k: Key, item: Item, c: Category)
    requires Valid(store) && id in store && source in store && id != source
    requires !Reaches(store, id, source)
    ensures var r1 := Import(store, id, prefix, source, toolSeparator, resourceSeparator, promptSeparator, now);
            var r2 := AddItem(r1, source, cat, k, item);
            r2[id] == r1[id] && View(r2, id, c) == View(r1, id, c)
  {
    var r1 := Import(store, id, prefix, source, toolSeparator, resourceSeparator, promptSeparator, now);
    ReachesSameMounts(store, r1, id, source);
    ImportIsSnapshot(r1, id, source, cat, k, item, c);
  }

  /** Expiry heals staleness: once every cache entry of `cat` has expired,
      a listing computes the reference merge again. */
  lemma ExpiredListIsView(store: Store, id: Id, cat: Category, now: int)
    requires Valid(store) && id in store
    requires forall x :: x in store ==> TimedCache.Get(store[x].cache, cat, now).None?
    ensures List(store, id, cat, now).0 == View(store, id, cat)
  {
    ListIsView(store, id, cat, now);
  }

  /** Only the own cache is cleared: after a registration at a mounted
      server, a parent whose listing is still cached keeps returning it,
      without the new key, although the reference merge lists the key and
      a dispatch resolves it. */
  lemma ParentListingGoesStale(store: Store, id: Id, i: nat, cat: Category, k: Key, item: Item, now: int)
    requires Valid(store) && id in store && i < |store[id].mounts|
    requires TimedCache.Get(store[id].cache, cat, now).Some?
    requires var m := store[id].mounts[i];
             var key := m.FullPrefix(cat) + k;
             && key !in TimedCache.Get(store[id].cache, cat, now).value
             && key !in store[id].locals.Get(cat) && FirstMatch(store, id, i, cat, key)
    ensures var m := store[id].mounts[i];
            var key := m.FullPrefix(cat) + k;
            var r := AddItem(store, m.server, cat, k, item);
            && key !in List(r, id, cat, now).0
            && key in View(r, id, cat)
            && Dispatch(r, id, cat, key) == Success(Resolved(m.server, k, item))
  {
    var m := store[id].mounts[i];
    var key := m.FullPrefix(cat) + k;
    var r := AddItem(store, m.server, cat, k, item);
    assert r[id] == store[id];
    MountIsLive(store, id, i, cat, k, item);
    RoundTrip(m, cat, k);
    ViewPrecedence(r, m.server, cat, k, 0);
    assert Contributes(r, id, i, cat, key);
    ViewKeys(r, id, cat, key);
  }
}

=== FILE: dispatching.dfy ===
/** Dispatch (src/fastmcp/server/server.py:375-433): how a tool call, a
    resource read and a prompt request find the component that serves
    them. The local registry is asked first; otherwise the mounts are tried
    in mount order and the first whose prefix matches receives the key with
    that prefix removed; otherwise the request fails with NotFound. */
module Dispatching {
  import opened Wrappers
  import opened Prefixes
  import opened Items
  import opened Mounting
  import opened Servers
  import opened Listings

  /** Where a request ended up: the server whose own registry holds the
      component, the key it is registered under there, and the component. */
  datatype Resolved = Resolved(server: Id, key: Key, item: Item)

  /** The facts every answer of a dispatch at `id` satisfies: a success
      names a component that really is registered, at `id` or below it; a
      failure is NotFound. */
  ghost predicate WellResolved(store: Store, id: Id, cat: Category, r: Result<Resolved, Error>) {
    && (r.Success? ==>
          && r.value.server in store && r.value.server <= id
          && r.value.key in store[r.value.server].locals.Get(cat)
          && r.value.item == store[r.value.server].locals.Get(cat)[r.value.key])
    && (r.Failure? ==> r.error.NotFound?)
  }

  /** `_mcp_call_tool` / `_mcp_read_resource` / `_mcp_get_prompt` up to the
      point where the component is used. */
  function Dispatch(store: Store, id: Id, cat: Category, key: Key): (r: Result<Resolved, Error>)
    requires Valid(store) && id in store
    ensures WellResolved(store, id, cat, r)
    ensures key in store[id].locals.Get(cat) ==>
              r == Success(Resolved(id, key, store[id].locals.Get(cat)[key]))
    ensures key !in store[id].locals.Get(cat) &&
            (forall i :: 0 <= i < |store[id].mounts| ==> !store[id].mounts[i].Matches(cat, key)) ==>
              r == Failure(NotFound(key))
    decreases id, 1
  {
    var local := store[id].locals.Get(cat);
    if key in local then Success(Resolved(id, key, local[key]))
    else DispatchMounts(store, id, 0, cat, key)
  }

  /** The `for server in self._mounted_servers.values()` loop of a dispatch,
      from mount `i` on. */
  function DispatchMounts(store: Store, id: Id, i: nat, cat: Category, key: Key): (r: Result<Resolved, Error>)
    requires Valid(store) && id in store && i <= |store[id].mounts|
    ensures WellResolved(store, id, cat, r)
    ensures (forall j :: i <= j < |store[id].mounts| ==> !store[id].mounts[j].Matches(cat, key)) ==>
              r == Failure(NotFound(key))
    decreases id, 0, |store[id].mounts| - i
  {
    var ms := store[id].mounts;
    if i == |ms| then Failure(NotFound(key))
    else if ms[i].Matches(cat, key) then Dispatch(store, ms[i].server, cat, ms[i].Strip(cat, key))
    else DispatchMounts(store, id, i + 1, cat, key)
  }

  /** Mount `i` is the first mount of `id` whose prefix matches `key`. */
  ghost predicate FirstMatch(store: Store, id: Id, i: nat, cat: Category, key: Key)
    requires id in store
  {
    && i < |store[id].mounts|
    && store[id].mounts[i].Matches(cat, key)
    && forall j :: 0 <= j < i ==> !store[id].mounts[j].Matches(cat, key)
  }

  /** A key that is not local goes to the first matching mount, with that
      mount's prefix removed, whatever later mounts would match too. */
  lemma DispatchFirstMatch(store: Store, id: Id, i: nat, cat: Category, key: Key)
    requires Valid(store) && id in store && key !in store[id].locals.Get(cat)
    requires FirstMatch(store, id, i, cat, key)
    ensures var m := store[id].mounts[i];
            Dispatch(store, id, cat, key) == Dispatch(store, m.server, cat, m.Strip(cat, key))
  {
    DispatchSkip(store, id, 0, i, cat, key);
    DispatchMountsHit(store, id, i, cat, key);
  }

  /** A matching mount takes the request, with its prefix removed. */
  lemma DispatchMountsHit(store: Store, id: Id, i: nat, cat: Category, key: Key)
    requires Valid(store) && id in store && i < |store[id].mounts|
    requires store[id].mounts[i].Matches(cat, key)
    ensures var m := store[id].mounts[i];
            DispatchMounts(store, id, i, cat, key) == Dispatch(store, m.server, cat, m.Strip(cat, key))
  {
  }

  /** A mount that does not match passes the request on. */
  lemma DispatchMountsPass(store: Store, id: Id, i: nat, cat: Category, key: Key)
    requires Valid(store) && id in store && i < |store[id].mounts|
    requires !store[id].mounts[i].Matches(cat, key)
    ensures DispatchMounts(store, id, i, cat, key) == DispatchMounts(store, id, i + 1, cat, key)
  {
  }

  /** Mounts that do not match are passed over. */
  lemma {:induction false} DispatchSkip(store: Store, id: Id, j: nat, i: nat, cat: Category, key: Key)
    requires Valid(store) && id in store && j <= i <= |store[id].mounts|
    requires forall k :: j <= k < i ==> !store[id].mounts[k].Matches(cat, key)
    ensures DispatchMounts(store, id, j, cat, key) == DispatchMounts(store, id, i, cat, key)
    decreases i - j
  {
    if j < i {
      var k := i - 1;
      DispatchSkip(store, id, j, k, cat, key);
      DispatchMountsPass(store, id, k, cat, key);
    }
  }

  /** Dispatch only finds what a listing shows: a key that resolves is a
      key of the reference listing. */
  lemma {:induction false} DispatchSound(store: Store, id: Id, cat: Category, key: Key)
    requires Valid(store) && id in store
    ensures Dispatch(store, id, cat, key).Success? ==> key in View(store, id, cat)
    decreases id
  {
    ViewKeys(store, id, cat, key);
    if key !in store[id].locals.Get(cat) && Dispatch(store, id, cat, key).Success? {
      assert exists k :: 0 <= k < |store[id].mounts| && store[id].mounts[k].Matches(cat, key);
      var i := FirstMatchFrom(store, id, 0, cat, key);
      var m := store[id].mounts[i];
      DispatchFirstMatch(store, id, i, cat, key);
      DispatchSound(store, m.server, cat, m.Strip(cat, key));
      assert Contributes(store, id, i, cat, key);
    }
  }

  /** The index of the first mount from `j` on that matches `key`, when
      dispatch from `j` does not give up at once. */
  lemma {:induction false} FirstMatchFrom(store: Store, id: Id, j: nat, cat: Category, key: Key) returns (i: nat)
    requires Valid(store) && id in store && j <= |store[id].mounts|
    requires forall k :: 0 <= k < j ==> !store[id].mounts[k].Matches(cat, key)
    requires exists k :: j <= k < |store[id].mounts| && store[id].mounts[k].Matches(cat, key)
    ensures j <= i && FirstMatch(store, id, i, cat, key)
    decreases |store[id].mounts| - j
  {
    if store[id].mounts[j].Matches(cat, key) {
      i := j;
    } else {
      i := FirstMatchFrom(store, id, j + 1, cat, key);
    }
  }

  /** No mount prefix of any server starts another mount prefix of the same
      server, in any category: then no key is claimed by two mounts. */
  ghost predicate Unambiguous(store: Store) {
    forall x, i, j, cat {:trigger store[x].mounts[i].FullPrefix(cat), store[x].mounts[j].FullPrefix(cat)} ::
      x in store && 0 <= i < |store[x].mounts| && 0 <= j < |store[x].mounts| && i != j ==>
        !StartsWith(store[x].mounts[j].FullPrefix(cat), store[x].mounts[i].FullPrefix(cat))
  }

  /** Under unambiguous prefixes at most one mount matches a key. */
  lemma OnlyMatch(store: Store, id: Id, i: nat, j: nat, cat: Category, key: Key)
    requires Unambiguous(store) && id in store
    requires i < |store[id].mounts| && j < |store[id].mounts|
    requires store[id].mounts[i].Matches(cat, key) && store[id].mounts[j].Matches(cat, key)
    ensures i == j
  {
    var p := store[id].mounts[i].FullPrefix(cat);
    var q := store[id].mounts[j].FullPrefix(cat);
    if i != j {
      if |p| <= |q| {
        CommonStart(key, p, q);
      } else {
        CommonStart(key, q, p);
      }
    }
  }

  /** With unambiguous prefixes dispatch and listing agree: a key resolves
      iff it is listed, and it resolves to the listed component. */
  lemma {:induction false} DispatchMatchesView(store: Store, id: Id, cat: Category, key: Key)
    requires Valid(store) && Unambiguous(store) && id in store
    ensures Dispatch(store, id, cat, key).Success? <==> key in View(store, id, cat)
    ensures Dispatch(store, id, cat, key).Success? ==>
              Dispatch(store, id, cat, key).value.item == View(store, id, cat)[key]
    decreases id
  {
    var ms := store[id].mounts;
    if key in store[id].locals.Get(cat) {
      ViewPrecedence(store, id, cat, key, 0);
    } else if i :| 0 <= i < |ms| && ms[i].Matches(cat, key) {
      var f := FirstMatchFrom(store, id, 0, cat, key);
      DispatchFirstMatch(store, id, f, cat, key);
      DispatchMatchesView(store, ms[f].server, cat, ms[f].Strip(cat, key));
      ViewThroughOnlyMatch(store, id, f, cat, key);
    } else {
      NoMatchNotListed(store, id, cat, key);
    }
  }

  /** A key that is neither local nor matched by any mount is not listed. */
  lemma NoMatchNotListed(store: Store, id: Id, cat: Category, key: Key)
    requires Valid(store) && id in store && key !in store[id].locals.Get(cat)
    requires forall i :: 0 <= i < |store[id].mounts| ==> !store[id].mounts[i].Matches(cat, key)
    ensures key !in View(store, id, cat)
  {
    ViewKeys(store, id, cat, key);
  }

  /** Under unambiguous prefixes a non-local key matched by mount `f` is
      listed iff the mounted server lists the stripped key, with its entry. */
  lemma ViewThroughOnlyMatch(store: Store, id: Id, f: nat, cat: Category, key: Key)
    requires Valid(store) && Unambiguous(store) && id in store && key !in store[id].locals.Get(cat)
    requires f < |store[id].mounts| && store[id].mounts[f].Matches(cat, key)
    ensures var m := store[id].mounts[f];
            && (key in View(store, id, cat) <==> m.Strip(cat, key) in View(store, m.server, cat))
            && (key in View(store, id, cat) ==> View(store, id, cat)[key] == View(store, m.server, cat)[m.Strip(cat, key)])
  {
    var ms := store[id].mounts;
    ViewKeys(store, id, cat, key);
    forall j | 0 <= j < |ms| && Contributes(store, id, j, cat, key)
      ensures j == f
    {
      OnlyMatch(store, id, j, f, cat, key);
    }
    ViewPrecedence(store, id, cat, key, f);
  }

  /** Every first matching mount routes a non-local key to the mounted
      server, with the prefix removed. */
  lemma FirstMatchRoutes(store: Store, id: Id, cat: Category, key: Key)
    requires Valid(store) && id in store
    ensures forall i: nat :: key !in store[id].locals.Get(cat) && FirstMatch(store, id, i, cat, key) ==>
              var m := store[id].mounts[i];
              Dispatch(store, id, cat, key) == Dispatch(store, m.server, cat, m.Strip(cat, key))
  {
    forall i: nat | key !in store[id].locals.Get(cat) && FirstMatch(store, id, i, cat, key)
      ensures var m := store[id].mounts[i];
              Dispatch(store, id, cat, key) == Dispatch(store, m.server, cat, m.Strip(cat, key))
    {
      DispatchFirstMatch(store, id, i, cat, key);
    }
  }

  /** What reading a resource's content produced: its text, or the message
      of the exception it raised. */
  datatype ReadOutcome = Content(data: string) | ReadFailed(message: string)

  /** `_mcp_read_resource` with the read of the resolved resource given as
      `read`: the innermost server reads, and a failing read becomes a
      ResourceError carrying the exception's message; NotFound comes back
      as is. A non-local URI is handed to the first matching mount's own
      `_mcp_read_resource` with the prefix removed. */
  function ReadResource(store: Store, id: Id, uri: Key, read: Item -> ReadOutcome): (r: Result<string, Error>)
    requires Valid(store) && id in store
    ensures r.Success? <==> Dispatch(store, id, Resources, uri).Success? &&
                            read(Dispatch(store, id, Resources, uri).value.item).Content?
    ensures r.Success? ==> r.value == read(Dispatch(store, id, Resources, uri).value.item).data
    ensures r.Failure? && r.error.ResourceError? ==>
              && Dispatch(store, id, Resources, uri).Success?
              && read(Dispatch(store, id, Resources, uri).value.item) == ReadFailed(r.error.message)
    ensures r.Failure? ==> r.error.NotFound? || r.error.ResourceError?
    ensures uri in store[id].locals.resources ==>
              r == match read(store[id].locals.resources[uri])
                   case Content(data) => Success(data)
                   case ReadFailed(msg) => Failure(ResourceError(msg))
    ensures Dispatch(store, id, Resources, uri).Failure? ==> r == Failure(Dispatch(store, id, Resources, uri).error)
    ensures uri !in store[id].locals.resources &&
            (forall i :: 0 <= i < |store[id].mounts| ==> !store[id].mounts[i].Matches(Resources, uri)) ==>
              r == Failure(NotFound(uri))
    ensures forall i: nat :: uri !in store[id].locals.resources && FirstMatch(store, id, i, Resources, uri) ==>
              var m := store[id].mounts[i];
              r == ReadResource(store, m.server, m.Strip(Resources, uri), read)
    decreases id
  {
    FirstMatchRoutes(store, id, Resources, uri);
    match Dispatch(store, id, Resources, uri)
    case Failure(e) => Failure(e)
    case Success(res) =>
      match read(res.item)
      case Content(data) => Success(data)
      case ReadFailed(msg) => Failure(ResourceError(msg))
  }

  /** `_mcp_call_tool` up to running the tool: the tool that would run, or
      NotFound. A non-local key is handed to the first matching mount's own
      `_mcp_call_tool` with the prefix removed. */
  function CallTool(store: Store, id: Id, key: Key): (r: Result<Resolved, Error>)
    requires Valid(store) && id in store
    ensures r.Success? ==> key in View(store, id, Tools)
    ensures key in store[id].locals.tools ==> r == Success(Resolved(id, key, store[id].locals.tools[key]))
    ensures r.Failure? ==> r.error.NotFound?
    ensures key !in store[id].locals.tools &&
            (forall i :: 0 <= i < |store[id].mounts| ==> !store[id].mounts[i].Matches(Tools, key)) ==>
              r == Failure(NotFound(key))
    ensures forall i: nat :: key !in store[id].locals.tools && FirstMatch(store, id, i, Tools, key) ==>
              var m := store[id].mounts[i];
              r == CallTool(store, m.server, m.Strip(Tools, key))
    decreases id
  {
    FirstMatchRoutes(store, id, Tools, key);
    DispatchSound(store, id, Tools, key);
    Dispatch(store, id, Tools, key)
  }

  /** `_mcp_get_prompt` up to rendering: the prompt that would render, or
      NotFound. A non-local name is handed to the first matching mount's own
      `_mcp_get_prompt` with the prefix removed. */
  function GetPrompt(store: Store, id: Id, name: Key): (r: Result<Resolved, Error>)
    requires Valid(store) && id in store
    ensures r.Success? ==> name in View(store, id, Prompts)
    ensures name in store[id].locals.prompts ==> r == Success(Resolved(id, name, store[id].locals.prompts[name]))
    ensures r.Failure? ==> r.error.NotFound?
    ensures name !in store[id].locals.prompts &&
            (forall i :: 0 <= i < |store[id].mounts| ==> !store[id].mounts[i].Matches(Prompts, name)) ==>
              r == Failure(NotFound(name))
    ensures forall i: nat :: name !in store[id].locals.prompts && FirstMatch(store, id, i, Prompts, name) ==>
              var m := store[id].mounts[i];
              r == GetPrompt(store, m.server, m.Strip(Prompts, name))
    decreases id
  {
    FirstMatchRoutes(store, id, Prompts, name);
    DispatchSound(store, id, Prompts, name);
    Dispatch(store, id, Prompts, name)
  }
}

=== FILE: items.dfy ===
/** Keys, opaque registered objects, the four listing categories, the errors
    the core raises and the leaf registries each server owns (its tool,
    resource and prompt managers, reduced to maps). */
module Items {

  /** A tool name, resource URI, template URI or prompt name. */
  type Key = string

  /** A registered tool, resource, resource template or prompt. The core
      never looks inside one, so it is an opaque identity here. */
  type Item = int

  /** Servers are shared references in the source; here they are entries
      of a store and this is their address. */
  type Id = nat

  /** The four things a server lists; each has its own cache entry
      ("tools", "resources", "resource_templates", "prompts"). */
  datatype Category = Tools | Resources | Templates | Prompts

  datatype Error =
    | NotFound(key: Key)             // NotFoundError("Unknown tool: ...") and its resource/prompt twins
    | ResourceError(message: string) // a local resource whose read raised
    | UnknownMount(prefix: string)   // the KeyError of `dict.pop` in unmount

  /** The leaf registries of one server. Resources and templates are two
      maps of the one resource manager. */
  datatype Locals = Locals(
    tools: map<Key, Item>,
    resources: map<Key, Item>,
    templates: map<Key, Item>,
    prompts: map<Key, Item>)
  {
    function Get(cat: Category): map<Key, Item> {
      match cat
      case Tools => tools
      case Resources => resources
      case Templates => templates
      case Prompts => prompts
    }

    /** Registers every entry of `entries` in the registry of `cat`; a key
        already present is overwritten and the other registries are left
        alone. */
    function AddAll(cat: Category, entries: map<Key, Item>): (r: Locals)
      ensures r.Get(cat).Keys == Get(cat).Keys + entries.Keys
      ensures forall k :: k in entries ==> r.Get(cat)[k] == entries[k]
      ensures forall k :: k in Get(cat) && k !in entries ==> r.Get(cat)[k] == Get(cat)[k]
      ensures forall c :: c != cat ==> r.Get(c) == Get(c)
    {
      match cat
      case Tools => this.(tools := tools + entries)
      case Resources => this.(resources := resources + entries)
      case Templates => this.(templates := templates + entries)
      case Prompts => this.(prompts := prompts + entries)
    }
  }

  const NoLocals := Locals(map[], map[], map[], map[])
}

=== FILE: listing.dfy ===
/** Listing (src/fastmcp/server/server.py:83-109, 288-332): the reference
    merge `View`, the cached listing `List` that the source actually runs,
    and the facts connecting them. */
module Listings {
  import opened Wrappers
  import opened Prefixes
  import opened Items
  import opened Mounting
  import opened Servers
  import TimedCache

  /** What a listing of `cat` at `id` computes when no cache entry in the
      tree is live: every mount's prefixed view merged in mount order with
      `dict.update` (a later mount overwrites an earlier one on the same
      key), then the local registry merged last. */
  function View(store: Store, id: Id, cat: Category): Listing
    requires Valid(store) && id in store
    decreases id, 1
  {
    MountsView(store, id, |store[id].mounts|, cat) + store[id].locals.Get(cat)
  }

  /** The merge accumulator after the first `n` mounts of `id`. */
  function MountsView(store: Store, id: Id, n: nat, cat: Category): Listing
    requires Valid(store) && id in store && n <= |store[id].mounts|
    decreases id, 0, n
  {
    if n == 0 then map[]
    else
      var m := store[id].mounts[n - 1];
      MountsView(store, id, n - 1, cat) + m.PrefixedView(cat, View(store, m.server, cat))
  }

  /** Mount `i` of `id` contributes `key` to a listing of `cat`. */
  ghost predicate Contributes(store: Store, id: Id, i: nat, cat: Category, key: Key)
    requires Valid(store) && id in store && i < |store[id].mounts|
  {
    var m := store[id].mounts[i];
    m.Matches(cat, key) && m.Strip(cat, key) in View(store, m.server, cat)
  }

  /** Every local entry of `cat` appears in `listing` with its own value. */
  ghost predicate LocalsWin(server: Server, cat: Category, listing: Listing) {
    forall k :: k in server.locals.Get(cat) ==> k in listing && listing[k] == server.locals.Get(cat)[k]
  }

  /** Every key of `listing` is local, or carries the full prefix of a mount. */
  ghost predicate KeysAccountedFor(server: Server, cat: Category, listing: Listing) {
    forall k :: k in listing ==>
      || k in server.locals.Get(cat)
      || exists i :: 0 <= i < |server.mounts| && server.mounts[i].Matches(cat, k)
  }

  /** The cached listing `get_tools` / `get_resources` /
      `get_resource_templates` / `get_prompts` at instant `now`. A live
      cache entry is returned as is. Otherwise the mounts are listed in
      order, each through the mounted server's own cached listing (which
      may fill caches further down), the results are merged with the local
      registry last, and the merge is cached. The second component is the
      store with its caches updated. */
  function List(store: Store, id: Id, cat: Category, now: int): (r: (Listing, Store))
    requires Valid(store) && id in store
    ensures SameShape(store, r.1) && Valid(r.1)
    ensures forall x :: x in store && x > id ==> r.1[x] == store[x]
    ensures OtherCachesSame(store, r.1, cat)
    ensures TimedCache.Get(store[id].cache, cat, now).Some? ==>
              r == (TimedCache.Get(store[id].cache, cat, now).value, store)
    ensures TimedCache.Get(store[id].cache, cat, now).None? ==>
              && r.1[id].cache == TimedCache.Set(store[id].cache, cat, r.0, now, store[id].expiration)
              && LocalsWin(store[id], cat, r.0) && KeysAccountedFor(store[id], cat, r.0)
    decreases id, 1
  {
    match TimedCache.Get(store[id].cache, cat, now)
    case Some(cached) => (cached, store)
    case None =>
      var (merged, s1) := ListMounts(store, id, 0, cat, now, map[]);
      var listing := merged + s1[id].locals.Get(cat);
      var c := TimedCache.Set(s1[id].cache, cat, listing, now, s1[id].expiration);
      var s2 := WithCache(s1, id, c);
      SameShapeTrans(store, s1, s2);
      WithCacheOthers(s1, id, c, cat);
      OtherCachesTrans(store, s1, s2, cat);
      (listing, s2)
  }

  /** The `for server in self._mounted_servers.values()` loop of a listing,
      from mount `i` on, with `acc` the dict built so far. */
  function ListMounts(store: Store, id: Id, i: nat, cat: Category, now: int, acc: Listing): (r: (Listing, Store))
    requires Valid(store) && id in store && i <= |store[id].mounts|
    ensures SameShape(store, r.1) && Valid(r.1)
    ensures forall x :: x in store && x >= id ==> r.1[x] == store[x]
    ensures OtherCachesSame(store, r.1, cat)
    ensures forall k :: k in r.0 ==>
              || k in acc
              || exists j :: i <= j < |store[id].mounts| && store[id].mounts[j].Matches(cat, k)
    decreases id, 0, |store[id].mounts| - i
  {
    if i == |store[id].mounts| then (acc, store)
    else
      var m := store[id].mounts[i];
      var (child, s1) := List(store, m.server, cat, now);
      var r := ListMounts(s1, id, i + 1, cat, now, acc + m.PrefixedView(cat, child));
      SameShapeTrans(store, s1, r.1);
      OtherCachesTrans(store, s1, r.1, cat);
      r
  }

  /** `y` is `x` or is reachable from `x` through mounts. */
  ghost predicate Reaches(store: Store, x: Id, y: Id)
    requires Valid(store) && x in store
    decreases x
  {
    x == y || exists i :: 0 <= i < |store[x].mounts| && Reaches(store, store[x].mounts[i].server, y)
  }

  /** Every live cache entry of `cat` in the store holds what a fresh
      listing would compute. */
  ghost predicate CoherentFor(store: Store, cat: Category, now: int)
    requires Valid(store)
  {
    forall id :: id in store && TimedCache.Get(store[id].cache, cat, now).Some? ==>
      TimedCache.Get(store[id].cache, cat, now).value == View(store, id, cat)
  }

  ghost predicate Coherent(store: Store, now: int)
    requires Valid(store)
  {
    forall cat :: CoherentFor(store, cat, now)
  }

  /** `b` agrees with `a` on every server `x` reaches, as far as a listing
      of `cat` can see. */
  ghost predicate Agree(a: Store, b: Store, x: Id, cat: Category)
    requires Valid(a) && x in a
  {
    forall y :: y in a && Reaches(a, x, y) ==>
      y in b && b[y].mounts == a[y].mounts && b[y].locals.Get(cat) == a[y].locals.Get(cat)
  }

  lemma AgreeSelf(a: Store, b: Store, x: Id, cat: Category)
    requires Valid(a) && x in a && Agree(a, b, x, cat)
    ensures x in b && b[x].mounts == a[x].mounts && b[x].locals.Get(cat) == a[x].locals.Get(cat)
  {
    assert Reaches(a, x, x);
  }

  lemma AgreeChild(a: Store, b: Store, x: Id, i: nat, cat: Category)
    requires Valid(a) && x in a && i < |a[x].mounts| && Agree(a, b, x, cat)
    ensures a[x].mounts[i].server in a && Agree(a, b, a[x].mounts[i].server, cat)
  {
    forall y | y in a && Reaches(a, a[x].mounts[i].server, y)
      ensures y in b && b[y].mounts == a[y].mounts && b[y].locals.Get(cat) == a[y].locals.Get(cat)
    {
      assert Reaches(a, x, y);
    }
  }

  /** One step of the merge, stated on `k` and `k + 1`. */
  lemma MountsViewUnfold(store: Store, id: Id, k: nat, cat: Category)
    requires Valid(store) && id in store && k < |store[id].mounts|
    ensures var m := store[id].mounts[k];
            MountsView(store, id, k + 1, cat) == MountsView(store, id, k, cat) + m.PrefixedView(cat, View(store, m.server, cat))
  {
  }

  /** One merge step of two stores that agree so far agrees too. */
  lemma MountsViewStep(a: Store, b: Store, x: Id, k: nat, cat: Category)
    requires Valid(a) && Valid(b) && x in a && x in b && k < |a[x].mounts|
    requires a[x].mounts == b[x].mounts
    requires MountsView(a, x, k, cat) == MountsView(b, x, k, cat)
    requires View(a, a[x].mounts[k].server, cat) == View(b, a[x].mounts[k].server, cat)
    ensures MountsView(a, x, k + 1, cat) == MountsView(b, x, k + 1, cat)
  {
  }

  /** A listing of `x` depends only on the servers `x` reaches, and on
      nothing of theirs but their mounts and their registry for `cat`. */
  lemma {:induction false} ViewFrame(a: Store, b: Store, x: Id, cat: Category)
    requires Valid(a) && Valid(b) && x in a && Agree(a, b, x, cat)
    ensures x in b && View(a, x, cat) == View(b, x, cat)
    decreases x, 1
  {
    MountsViewFrame(a, b, x, |a[x].mounts|, cat);
    AgreeSelf(a, b, x, cat);
  }

  lemma {:induction false} MountsViewFrame(a: Store, b: Store, x: Id, n: nat, cat: Category)
    requires Valid(a) && Valid(b) && x in a && n <= |a[x].mounts| && Agree(a, b, x, cat)
    ensures x in b && n <= |b[x].mounts| && MountsView(a, x, n, cat) == MountsView(b, x, n, cat)
    decreases x, 0, n
  {
    AgreeSelf(a, b, x, cat);
    if n > 0 {
      var k := n - 1;
      MountsViewFrame(a, b, x, k, cat);
      AgreeChild(a, b, x, k, cat);
      ViewFrame(a, b, a[x].mounts[k].server, cat);
      MountsViewStep(a, b, x, k, cat);
    }
  }

  /** Corollary: a store that agrees on everything a listing of `cat` reads
      lists `cat` identically everywhere. */
  lemma ViewSameFor(a: Store, b: Store, x: Id, cat: Category)
    requires Valid(a) && SameFor(a, b, cat) && x in a
    ensures Valid(b) && View(a, x, cat) == View(b, x, cat)
  {
    SameMountsValid(a, b);
    ViewFrame(a, b, x, cat);
  }

  lemma MountsViewSameFor(a: Store, b: Store, x: Id, n: nat, cat: Category)
    requires Valid(a) && SameFor(a, b, cat) && x in a && n <= |a[x].mounts|
    ensures Valid(b) && n <= |b[x].mounts| && MountsView(a, x, n, cat) == MountsView(b, x, n, cat)
  {
    SameMountsValid(a, b);
    MountsViewFrame(a, b, x, n, cat);
  }

  lemma ShapeIsSameFor(a: Store, b: Store, cat: Category)
    requires SameShape(a, b)
    ensures SameFor(a, b, cat)
  {
  }

  /** One merge step, seen from a single key: mount `k` adds `key` iff it
      contributes it. */
  lemma MountsViewAt(store: Store, id: Id, k: nat, cat: Category, key: Key)
    requires Valid(store) && id in store && k < |store[id].mounts|
    ensures key in MountsView(store, id, k + 1, cat) <==>
              key in MountsView(store, id, k, cat) || Contributes(store, id, k, cat, key)
  {
    MountsViewUnfold(store, id, k, cat);
    var m := store[id].mounts[k];
    PrefixedViewAt(m, cat, View(store, m.server, cat), key);
  }

  /** A contributing mount overwrites the entry with the mounted server's. */
  lemma MountsViewTake(store: Store, id: Id, k: nat, cat: Category, key: Key)
    requires Valid(store) && id in store && k < |store[id].mounts|
    requires Contributes(store, id, k, cat, key)
    ensures key in MountsView(store, id, k + 1, cat)
    ensures var m := store[id].mounts[k];
            MountsView(store, id, k + 1, cat)[key] == View(store, m.server, cat)[m.Strip(cat, key)]
  {
    MountsViewUnfold(store, id, k, cat);
    var m := store[id].mounts[k];
    PrefixedViewAt(m, cat, View(store, m.server, cat), key);
  }

  /** A mount that does not contribute `key` leaves its entry alone. */
  lemma MountsViewSkip(store: Store, id: Id, k: nat, cat: Category, key: Key)
    requires Valid(store) && id in store && k < |store[id].mounts|
    requires !Contributes(store, id, k, cat, key)
    ensures key in MountsView(store, id, k + 1, cat) <==> key in MountsView(store, id, k, cat)
    ensures key in MountsView(store, id, k, cat) ==>
              MountsView(store, id, k + 1, cat)[key] == MountsView(store, id, k, cat)[key]
  {
    MountsViewUnfold(store, id, k, cat);
    var m := store[id].mounts[k];
    PrefixedViewAt(m, cat, View(store, m.server, cat), key);
  }

  /** A key is in the merge of the first `n` mounts iff one of them
      contributes it. */
  lemma {:induction false} MountsViewKeys(store: Store, id: Id, n: nat, cat: Category, key: Key)
    requires Valid(store) && id in store && n <= |store[id].mounts|
    ensures key in MountsView(store, id, n, cat) <==> exists i :: 0 <= i < n && Contributes(store, id, i, cat, key)
    decreases n
  {
    if n > 0 {
      var k := n - 1;
      MountsViewKeys(store, id, k, cat, key);
      MountsViewAt(store, id, k, cat, key);
      if Contributes(store, id, k, cat, key) {
        assert exists i :: 0 <= i < n && Contributes(store, id, i, cat, key);
      }
    }
  }

  /** Among mounts the later one wins: the merge of the first `n` mounts
      holds, under `key`, the entry of the last mount below `n` that
      contributes it. */
  lemma {:induction false} MountsViewLast(store: Store, id: Id, n: nat, cat: Category, key: Key, i: nat)
    requires Valid(store) && id in store && i < n <= |store[id].mounts|
    requires Contributes(store, id, i, cat, key)
    requires forall j :: i < j < n ==> !Contributes(store, id, j, cat, key)
    ensures key in MountsView(store, id, n, cat)
    ensures var m := store[id].mounts[i];
            MountsView(store, id, n, cat)[key] == View(store, m.server, cat)[m.Strip(cat, key)]
    decreases n
  {
    var k := n - 1;
    if k == i {
      MountsViewTake(store, id, k, cat, key);
    } else {
      MountsViewLast(store, id, k, cat, key, i);
      MountsViewSkip(store, id, k, cat, key);
    }
  }

  /** Listing shape: a key is listed iff it is registered locally or some
      mount contributes it (its prefix followed by a key the mounted server
      lists). */
  lemma ViewKeys(store: Store, id: Id, cat: Category, key: Key)
    requires Valid(store) && id in store
    ensures key in View(store, id, cat) <==>
              key in store[id].locals.Get(cat) ||
              exists i :: 0 <= i < |store[id].mounts| && Contributes(store, id, i, cat, key)
  {
    MountsViewKeys(store, id, |store[id].mounts|, cat, key);
  }

  /** Listing precedence: a local entry wins over every mount; otherwise
      the last contributing mount in mount order wins. */
  lemma ViewPrecedence(store: Store, id: Id, cat: Category, key: Key, i: nat)
    requires Valid(store) && id in store
    ensures key in store[id].locals.Get(cat) ==>
              key in View(store, id, cat) && View(store, id, cat)[key] == store[id].locals.Get(cat)[key]
    ensures && key !in store[id].locals.Get(cat)
            && i < |store[id].mounts|
            && Contributes(store, id, i, cat, key)
            && (forall j :: i < j < |store[id].mounts| ==> !Contributes(store, id, j, cat, key))
            ==> var m := store[id].mounts[i];
                key in View(store, id, cat) &&
                View(store, id, cat)[key] == View(store, m.server, cat)[m.Strip(cat, key)]
  {
    if key !in store[id].locals.Get(cat) && i < |store[id].mounts| && Contributes(store, id, i, cat, key)
       && (forall j :: i < j < |store[id].mounts| ==> !Contributes(store, id, j, cat, key)) {
      MountsViewLast(store, id, |store[id].mounts|, cat, key, i);
    }
  }

  /** On a coherent store the cached listing computes exactly the reference
      merge and leaves the store coherent. */
  lemma {:induction false} ListIsView(store: Store, id: Id, cat: Category, now: int)
    requires Valid(store) && id in store && CoherentFor(store, cat, now)
    ensures List(store, id, cat, now).0 == View(store, id, cat)
    ensures Valid(List(store, id, cat, now).1) && CoherentFor(List(store, id, cat, now).1, cat, now)
    decreases id, 1
  {
    if TimedCache.Get(store[id].cache, cat, now).None? {
      var (merged, s1) := ListMounts(store, id, 0, cat, now, map[]);
      ListMountsIsView(store, id, 0, cat, now, map[]);
      ShapeIsSameFor(store, s1, cat);
      ViewSameFor(store, s1, id, cat);
      var listing := merged + s1[id].locals.Get(cat);
      var c := TimedCache.Set(s1[id].cache, cat, listing, now, s1[id].expiration);
      assert List(store, id, cat, now) == (listing, WithCache(s1, id, c));
      CacheViewCoherent(s1, id, cat, now, listing);
    }
  }

  /** Caching the reference listing of `id` in a coherent store keeps it
      coherent. */
  lemma CacheViewCoherent(s1: Store, id: Id, cat: Category, now: int, listing: Listing)
    requires Valid(s1) && id in s1 && CoherentFor(s1, cat, now) && listing == View(s1, id, cat)
    ensures var s2 := WithCache(s1, id, TimedCache.Set(s1[id].cache, cat, listing, now, s1[id].expiration));
            Valid(s2) && CoherentFor(s2, cat, now)
  {
    var s2 := WithCache(s1, id, TimedCache.Set(s1[id].cache, cat, listing, now, s1[id].expiration));
    forall x | x in s2 && TimedCache.Get(s2[x].cache, cat, now).Some?
      ensures TimedCache.Get(s2[x].cache, cat, now).value == View(s2, x, cat)
    {
      ShapeIsSameFor(s1, s2, cat);
      ViewSameFor(s1, s2, x, cat);
    }
  }

  lemma {:induction false} ListMountsIsView(store: Store, id: Id, i: nat, cat: Category, now: int, acc: Listing)
    requires Valid(store) && id in store && i <= |store[id].mounts| && CoherentFor(store, cat, now)
    requires acc == MountsView(store, id, i, cat)
    ensures ListMounts(store, id, i, cat, now, acc).0 == MountsView(store, id, |store[id].mounts|, cat)
    ensures Valid(ListMounts(store, id, i, cat, now, acc).1)
    ensures CoherentFor(ListMounts(store, id, i, cat, now, acc).1, cat, now)
    decreases id, 0, |store[id].mounts| - i, 1
  {
    if i < |store[id].mounts| {
      var m := store[id].mounts[i];
      var l := List(store, m.server, cat, now);
      ListMountsUnfold(store, id, i, cat, now, acc);
      ListMountStep(store, id, i, cat, now, acc);
      ListMountsIsView(l.1, id, i + 1, cat, now, acc + m.PrefixedView(cat, l.0));
    } else {
      assert ListMounts(store, id, i, cat, now, acc) == (acc, store);
    }
  }

  /** One step of the mount loop of a listing. */
  lemma ListMountsUnfold(store: Store, id: Id, i: nat, cat: Category, now: int, acc: Listing)
    requires Valid(store) && id in store && i < |store[id].mounts|
    ensures var m := store[id].mounts[i];
            var l := List(store, m.server, cat, now);
            ListMounts(store, id, i, cat, now, acc) == ListMounts(l.1, id, i + 1, cat, now, acc + m.PrefixedView(cat, l.0))
  {
  }

  /** On a coherent store, listing mount `i` extends the reference merge by
      one mount, keeps the store coherent, and changes nothing the merge of
      `id` reads. */
  lemma {:induction false} ListMountStep(store: Store, id: Id, i: nat, cat: Category, now: int, acc: Listing)
    requires Valid(store) && id in store && i < |store[id].mounts| && CoherentFor(store, cat, now)
    requires acc == MountsView(store, id, i, cat)
    decreases id, 0, |store[id].mounts| - i, 0
    ensures var m := store[id].mounts[i];
            var l := List(store, m.server, cat, now);
            && Valid(l.1) && id in l.1 && l.1[id].mounts == store[id].mounts && CoherentFor(l.1, cat, now)
            && acc + m.PrefixedView(cat, l.0) == MountsView(l.1, id, i + 1, cat)
            && MountsView(l.1, id, |l.1[id].mounts|, cat) == MountsView(store, id, |store[id].mounts|, cat)
  {
    var m := store[id].mounts[i];
    var (child, s1) := List(store, m.server, cat, now);
    ListIsView(store, m.server, cat, now);
    ShapeIsSameFor(store, s1, cat);
    MountsViewSameFor(store, s1, id, i + 1, cat);
    MountsViewSameFor(store, s1, id, |store[id].mounts|, cat);
    MountsViewUnfold(store, id, i, cat);
  }

  /** Every mount of `id` holds a live cached listing of `cat` at `now`. */
  ghost predicate MountsLive(store: Store, id: Id, cat: Category, now: int)
    requires Valid(store) && id in store
  {
    forall i :: 0 <= i < |store[id].mounts| ==>
      TimedCache.Get(store[store[id].mounts[i].server].cache, cat, now).Some?
  }

  /** The merge of the first `n` mounts' live cached listings, each under its
      binding's full prefix, a later mount overwriting an earlier one: what
      the mount loop of a listing builds when every mounted server answers
      from its cache, whether or not that cache is still up to date. */
  ghost function CachedMerge(store: Store, id: Id, n: nat, cat: Category, now: int): Listing
    requires Valid(store) && id in store && n <= |store[id].mounts| && MountsLive(store, id, cat, now)
  {
    if n == 0 then map[]
    else
      var m := store[id].mounts[n - 1];
      CachedMerge(store, id, n - 1, cat, now) + m.PrefixedView(cat, TimedCache.Get(store[m.server].cache, cat, now).value)
  }

  /** One more mount in the merge of cached listings. */
  lemma CachedMergeStep(store: Store, id: Id, k: nat, cat: Category, now: int)
    requires Valid(store) && id in store && k < |store[id].mounts| && MountsLive(store, id, cat, now)
    ensures var m := store[id].mounts[k];
            CachedMerge(store, id, k + 1, cat, now) ==
              CachedMerge(store, id, k, cat, now) + m.PrefixedView(cat, TimedCache.Get(store[m.server].cache, cat, now).value)
  {
  }

  /** The mount loop when every mounted server answers from its cache: it
      builds the merge of those cached listings and changes no cache. */
  lemma {:induction false} ListMountsFromCaches(store: Store, id: Id, i: nat, cat: Category, now: int, acc: Listing)
    requires Valid(store) && id in store && i <= |store[id].mounts| && MountsLive(store, id, cat, now)
    requires acc == CachedMerge(store, id, i, cat, now)
    ensures ListMounts(store, id, i, cat, now, acc).0 == CachedMerge(store, id, |store[id].mounts|, cat, now)
    ensures ListMounts(store, id, i, cat, now, acc).1 == store
    decreases |store[id].mounts| - i
  {
    if i < |store[id].mounts| {
      var m := store[id].mounts[i];
      var cached := TimedCache.Get(store[m.server].cache, cat, now).value;
      var l := List(store, m.server, cat, now);
      assert l.0 == cached && l.1 == store;
      ListMountsUnfold(store, id, i, cat, now, acc);
      CachedMergeStep(store, id, i, cat, now);
      ListMountsFromCaches(store, id, i + 1, cat, now, acc + m.PrefixedView(cat, cached));
    } else {
      assert ListMounts(store, id, i, cat, now, acc).0 == acc;
    }
  }

  /** A listing that misses its own cache while every mounted server holds
      a live entry merges exactly those entries under their prefixes, later
      mount winning, with the local registry last, whatever the entries
      below it hold now. A stale entry of a child is therefore copied into
      the parent's listing and cached there. */
  lemma ListFromLiveMounts(store: Store, id: Id, cat: Category, now: int)
    requires Valid(store) && id in store && MountsLive(store, id, cat, now)
    requires TimedCache.Get(store[id].cache, cat, now).None?
    ensures List(store, id, cat, now).0 == CachedMerge(store, id, |store[id].mounts|, cat, now) + store[id].locals.Get(cat)
  {
    ListMountsFromCaches(store, id, 0, cat, now, map[]);
  }

  /** Coherence of `cat` carries over to a store that lists `cat` the same
      way and holds the same cache entries for it. */
  lemma CoherentTransfer(a: Store, b: Store, cat: Category, now: int)
    requires Valid(a) && SameFor(a, b, cat) && CoherentFor(a, cat, now)
    requires forall x :: x in a ==> TimedCache.SameEntry(a[x].cache, b[x].cache, cat)
    ensures Valid(b) && CoherentFor(b, cat, now)
  {
    SameMountsValid(a, b);
    forall x | x in b && TimedCache.Get(b[x].cache, cat, now).Some?
      ensures TimedCache.Get(b[x].cache, cat, now).value == View(b, x, cat)
    {
      assert TimedCache.SameEntry(a[x].cache, b[x].cache, cat);
      ViewSameFor(a, b, x, cat);
    }
  }

  /** A listing is cached: asking again while the entry written by a miss is
      still live returns the same listing and changes nothing. */
  lemma ListCached(store: Store, id: Id, cat: Category, now: int, later: int)
    requires Valid(store) && id in store
    requires TimedCache.Get(store[id].cache, cat, now).None?
    requires now <= later < now + store[id].expiration
    ensures var (listing, s1) := List(store, id, cat, now);
            List(s1, id, cat, later) == (listing, s1)
  {
  }
}

=== FILE: mounted_server.dfy ===
/** `MountedServer` (src/fastmcp/server/server.py:61-127): a prefix binding
    from a mounting server to a target server, with one separator for tools,
    one for resources and templates, and one for prompts. */
module Mounting {
  import opened Wrappers
  import opened Prefixes
  import opened Items

  const DefaultToolSeparator: string := "_"
  const DefaultResourceSeparator: string := "+"
  const DefaultPromptSeparator: string := "_"

  datatype MountedServer = MountedServer(
    prefix: string,
    server: Id,
    toolSeparator: string,
    resourceSeparator: string,
    promptSeparator: string)
  {
    /** The separator a category is prefixed with; templates share the
        resource separator. */
    function Separator(cat: Category): string {
      match cat
      case Tools => toolSeparator
      case Resources => resourceSeparator
      case Templates => resourceSeparator
      case Prompts => promptSeparator
    }

    /** `f"{prefix}{separator}"`. */
    function FullPrefix(cat: Category): string {
      prefix + Separator(cat)
    }

    /** `match_tool`, `match_resource`, `match_prompt`. */
    predicate Matches(cat: Category, key: Key) {
      StartsWith(key, FullPrefix(cat))
    }

    /** `strip_tool_prefix`, `strip_resource_prefix`, `strip_prompt_prefix`:
        total, a key that does not match comes back unchanged. */
    function Strip(cat: Category, key: Key): (r: Key)
      ensures Matches(cat, key) ==> FullPrefix(cat) + r == key
      ensures !Matches(cat, key) ==> r == key
    {
      RemovePrefix(key, FullPrefix(cat))
    }

    /** `get_tools`, `get_resources`, `get_resource_templates`,
        `get_prompts`: the target's listing `view` under this binding's
        names. */
    function PrefixedView(cat: Category, view: map<Key, Item>): (r: map<Key, Item>)
      ensures forall k :: k in view ==> FullPrefix(cat) + k in r && r[FullPrefix(cat) + k] == view[k]
      ensures forall k :: k in r ==> Matches(cat, k) && Strip(cat, k) in view && r[k] == view[Strip(cat, k)]
    {
      Prefixed(view, FullPrefix(cat))
    }
  }

  /** The `MountedServer` constructor: an omitted separator is "_" for tools
      and prompts and "+" for resources. `import_server` applies the same
      defaults through `Separators`. */
  function NewMount(prefix: string, server: Id,
                    toolSeparator: Option<string>,
                    resourceSeparator: Option<string>,
                    promptSeparator: Option<string>): (m: MountedServer)
    ensures m.prefix == prefix && m.server == server
    ensures toolSeparator.None? ==> m.Separator(Tools) == "_"
    ensures resourceSeparator.None? ==> m.Separator(Resources) == "+" && m.Separator(Templates) == "+"
    ensures promptSeparator.None? ==> m.Separator(Prompts) == "_"
    ensures toolSeparator.Some? ==> m.Separator(Tools) == toolSeparator.value
    ensures resourceSeparator.Some? ==> m.Separator(Resources) == resourceSeparator.value
                                        && m.Separator(Templates) == resourceSeparator.value
    ensures promptSeparator.Some? ==> m.Separator(Prompts) == promptSeparator.value
  {
    MountedServer(prefix, server,
                  Or(toolSeparator, DefaultToolSeparator),
                  Or(resourceSeparator, DefaultResourceSeparator),
                  Or(promptSeparator, DefaultPromptSeparator))
  }

  function Or(o: Option<string>, default: string): string {
    match o
    case Some(s) => s
    case None => default
  }

  /** Every key of `view` with `p` prepended; `p + k` is injective in `k`,
      so no two entries collide. */
  function Prefixed(view: map<Key, Item>, p: string): (r: map<Key, Item>)
    ensures forall k :: k in view ==> p + k in r && r[p + k] == view[k]
    ensures forall k :: k in r ==> StartsWith(k, p) && RemovePrefix(k, p) in view && r[k] == view[RemovePrefix(k, p)]
  {
    forall k | k in view
      ensures StartsWith(p + k, p) && RemovePrefix(p + k, p) == k
    {
      PrependThenRemove(p, k);
    }
    var keys := set k | k in view :: p + k;
    map key | key in keys :: view[RemovePrefix(key, p)]
  }

  /** Prefix round trip: a key built by prefixing matches the binding and
      stripping gives back the original key, for every category. */
  lemma RoundTrip(m: MountedServer, cat: Category, k: Key)
    ensures m.Matches(cat, m.FullPrefix(cat) + k)
    ensures m.Strip(cat, m.FullPrefix(cat) + k) == k
  {
    PrependThenRemove(m.FullPrefix(cat), k);
  }

  /** The converse round trip: a matching key is exactly the binding's
      prefix followed by its stripped form. */
  lemma MatchIsPrefixed(m: MountedServer, cat: Category, key: Key)
    requires m.Matches(cat, key)
    ensures exists k :: key == m.FullPrefix(cat) + k
  {
    assert key == m.FullPrefix(cat) + m.Strip(cat, key);
  }

  /** Membership in a prefixed view, key by key: `key` is listed iff it
      matches the binding and its stripped form is in `view`, and then it
      carries that entry. */
  lemma PrefixedViewAt(m: MountedServer, cat: Category, view: map<Key, Item>, key: Key)
    ensures key in m.PrefixedView(cat, view) <==> m.Matches(cat, key) && m.Strip(cat, key) in view
    ensures key in m.PrefixedView(cat, view) ==> m.PrefixedView(cat, view)[key] == view[m.Strip(cat, key)]
  {
    if m.Matches(cat, key) && m.Strip(cat, key) in view {
      assert m.FullPrefix(cat) + m.Strip(cat, key) == key;
    }
  }

  /** A single entry is listed under the binding's prefixed name alone. */
  lemma PrefixedSingleton(m: MountedServer, cat: Category, k: Key, item: Item)
    ensures m.PrefixedView(cat, map[k := item]) == map[m.FullPrefix(cat) + k := item]
  {
    var r := m.PrefixedView(cat, map[k := item]);
    forall key | key in r
      ensures key == m.FullPrefix(cat) + k
    {
      assert m.Strip(cat, key) == k;
    }
  }
}

=== FILE: mutations.dfy ===
/** Registering, mounting, unmounting and importing
    (src/fastmcp/server/server.py:435-456, 504-544, 612-630, 736-833).
    Every one of them ends with `self._cache.clear()`: the server clears its
    own cache and no other. */
module Mutations {
  import opened Wrappers
  import opened Items
  import opened Mounting
  import opened Servers
  import opened Listings
  import opened Dispatching
  import TimedCache

  /** A cache with no entry at all, as `TimedCache.clear` leaves it. */
  ghost predicate Cleared(c: TimedCache.Cache<Category, Listing>) {
    forall cat, now :: TimedCache.Get(c, cat, now).None?
  }

  /** `r` is `store` with server `id` replaced by one with the same cache
      expiration and a cleared cache; every other server is untouched. */
  ghost predicate EditedAt(store: Store, r: Store, id: Id)
    requires id in store
  {
    && r.Keys == store.Keys
    && (forall x :: x in store && x != id ==> r[x] == store[x])
    && r[id].expiration == store[id].expiration
    && Cleared(r[id].cache)
  }

  /** Replaces the registries and mounts of `id` and clears its cache. */
  function Replace(store: Store, id: Id, locals: Locals, mounts: seq<MountedServer>): (r: Store)
    requires Valid(store) && id in store
    requires DistinctPrefixes(mounts) && MountsBelow(mounts, id, store)
    ensures Valid(r) && EditedAt(store, r, id)
    ensures r[id].locals == locals && r[id].mounts == mounts
  {
    var r := store[id := Server(locals, mounts, store[id].expiration, TimedCache.Clear(store[id].cache))];
    assert forall x :: x in r && x != id ==> r[x] == store[x];
    r
  }

  /** The registry of `cat` at `id` gains `key`; `_cache.clear()` follows. */
  function AddItem(store: Store, id: Id, cat: Category, key: Key, item: Item): (r: Store)
    requires Valid(store) && id in store
    ensures Valid(r) && EditedAt(store, r, id)
    ensures r[id].locals.Get(cat) == store[id].locals.Get(cat)[key := item]
    ensures forall c :: c != cat ==> r[id].locals.Get(c) == store[id].locals.Get(c)
    ensures r[id].mounts == store[id].mounts
  {
    var locals := store[id].locals.AddAll(cat, map[key := item]);
    assert locals.Get(cat) == store[id].locals.Get(cat)[key := item];
    Replace(store, id, locals, store[id].mounts)
  }

  /** `add_tool`: the tool is called locally from then on. */
  function AddTool(store: Store, id: Id, key: Key, tool: Item): (r: Store)
    requires Valid(store) && id in store
    ensures Valid(r) && EditedAt(store, r, id)
    ensures r[id].mounts == store[id].mounts
    ensures r[id].locals.tools == store[id].locals.tools[key := tool]
    ensures r[id].locals.resources == store[id].locals.resources
    ensures r[id].locals.templates == store[id].locals.templates
    ensures r[id].locals.prompts == store[id].locals.prompts
  {
    AddItem(store, id, Tools, key, tool)
  }

  /** `add_resource`. */
  function AddResource(store: Store, id: Id, key: Key, resource: Item): (r: Store)
    requires Valid(store) && id in store
    ensures Valid(r) && EditedAt(store, r, id)
    ensures r[id].mounts == store[id].mounts
    ensures r[id].locals.resources == store[id].locals.resources[key := resource]
    ensures r[id].locals.tools == store[id].locals.tools
    ensures r[id].locals.templates == store[id].locals.templates
    ensures r[id].locals.prompts == store[id].locals.prompts
  {
    AddItem(store, id, Resources, key, resource)
  }

  /** `add_resource_fn`: whether the function becomes a template (its URI
      has parameters, or the function has) is decided by the resource
      manager and is given here as `isTemplate`. */
  function AddResourceFn(store: Store, id: Id, uri: Key, resource: Item, isTemplate: bool): (r: Store)
    requires Valid(store) && id in store
    ensures Valid(r) && EditedAt(store, r, id)
    ensures r[id].mounts == store[id].mounts
    ensures isTemplate ==> && r[id].locals.templates == store[id].locals.templates[uri := resource]
                           && r[id].locals.resources == store[id].locals.resources
    ensures !isTemplate ==> && r[id].locals.resources == store[id].locals.resources[uri := resource]
                            && r[id].locals.templates == store[id].locals.templates
    ensures r[id].locals.tools == store[id].locals.tools
    ensures r[id].locals.prompts == store[id].locals.prompts
  {
    AddItem(store, id, if isTemplate then Templates else Resources, uri, resource)
  }

  /** `add_prompt`. */
  function AddPrompt(store: Store, id: Id, name: Key, prompt: Item): (r: Store)
    requires Valid(store) && id in store
    ensures Valid(r) && EditedAt(store, r, id)
    ensures r[id].mounts == store[id].mounts
    ensures r[id].locals.prompts == store[id].locals.prompts[name := prompt]
    ensures r[id].locals.tools == store[id].locals.tools
    ensures r[id].locals.resources == store[id].locals.resources
    ensures r[id].locals.templates == store[id].locals.templates
  {
    AddItem(store, id, Prompts, name, prompt)
  }

  /** The position of the binding for `prefix` in `_mounted_servers`, if
      there is one. */
  function FindPrefix(ms: seq<MountedServer>, prefix: string): (r: Option<nat>)
    ensures r.Some? ==> r.value < |ms| && ms[r.value].prefix == prefix
    ensures r.None? <==> forall i :: 0 <= i < |ms| ==> ms[i].prefix != prefix
  {
    if |ms| == 0 then None
    else if ms[0].prefix == prefix then Some(0)
    else
      match FindPrefix(ms[1..], prefix)
      case None =>
        assert forall i :: 1 <= i < |ms| ==> ms[i] == ms[1..][i - 1];
        None
      case Some(i) => Some(i + 1)
  }

  /** `self._mounted_servers[prefix] = mounted_server`: a dict assignment
      keeps an existing key in its place and appends a new one. */
  function PutMount(ms: seq<MountedServer>, m: MountedServer): (r: seq<MountedServer>)
    ensures FindPrefix(ms, m.prefix).Some? ==>
              var i := FindPrefix(ms, m.prefix).value;
              |r| == |ms| && r[i] == m && forall j :: 0 <= j < |ms| && j != i ==> r[j] == ms[j]
    ensures FindPrefix(ms, m.prefix).None? ==> |r| == |ms| + 1 && r[..|ms|] == ms && r[|ms|] == m
    ensures forall j :: 0 <= j < |r| ==> r[j] == m || r[j] in ms
    ensures DistinctPrefixes(ms) ==> DistinctPrefixes(r)
  {
    match FindPrefix(ms, m.prefix)
    case Some(i) => ms[i := m]
    case None => ms + [m]
  }

  /** `self._mounted_servers.pop(prefix)`: a missing prefix is a KeyError;
      otherwise the binding goes and the others keep their order. */
  function RemoveMount(ms: seq<MountedServer>, prefix: string): (r: Result<seq<MountedServer>, Error>)
    ensures r.Failure? <==> forall i :: 0 <= i < |ms| ==> ms[i].prefix != prefix
    ensures r.Failure? ==> r.error == UnknownMount(prefix)
    ensures r.Success? ==> |r.value| == |ms| - 1
    ensures r.Success? ==> forall j :: 0 <= j < |r.value| ==> r.value[j] in ms
    ensures r.Success? && DistinctPrefixes(ms) ==> forall j :: 0 <= j < |r.value| ==> r.value[j].prefix != prefix
    ensures r.Success? ==> forall j :: 0 <= j < |ms| && ms[j].prefix != prefix ==> ms[j] in r.value
    ensures r.Success? && DistinctPrefixes(ms) ==> DistinctPrefixes(r.value)
    ensures r.Success? ==> var i := FindPrefix(ms, prefix).value;
            forall j :: 0 <= j < |r.value| ==> r.value[j] == if j < i then ms[j] else ms[j + 1]
  {
    match FindPrefix(ms, prefix)
    case None => Failure(UnknownMount(prefix))
    case Some(i) =>
      Success(Without(ms, i))
  }

  /** `ms` with position `i` taken out; the others keep their order. */
  function Without(ms: seq<MountedServer>, i: nat): (r: seq<MountedServer>)
    requires i < |ms|
    ensures |r| == |ms| - 1
    ensures forall j :: 0 <= j < |r| ==> r[j] == if j < i then ms[j] else ms[j + 1]
    ensures forall j :: 0 <= j < |ms| && j != i ==> ms[j] in r
    ensures DistinctPrefixes(ms) ==> DistinctPrefixes(r)
    ensures DistinctPrefixes(ms) ==> forall j :: 0 <= j < |r| ==> r[j].prefix != ms[i].prefix
  {
    var r := ms[..i] + ms[i + 1..];
    assert forall j :: 0 <= j < |r| ==> r[j] == if j < i then ms[j] else ms[j + 1];
    assert forall j :: 0 <= j < |ms| && j != i ==> ms[j] == r[if j < i then j else j - 1];
    r
  }

  /** Every binding of `sub` is a binding of `ms`: whatever `ms` mounts is
      below `id`, so is whatever `sub` mounts. */
  lemma MountsBelowSub(ms: seq<MountedServer>, sub: seq<MountedServer>, id: Id, store: Store)
    requires MountsBelow(ms, id, store)
    requires forall j :: 0 <= j < |sub| ==> sub[j] in ms
    ensures MountsBelow(sub, id, store)
  {
    forall j | 0 <= j < |sub|
      ensures sub[j].server in store && sub[j].server < id
    {
      var k :| 0 <= k < |ms| && ms[k] == sub[j];
    }
  }

  /** `mount`: binds `child` under `prefix` (replacing an existing binding
      for `prefix` in its place, else appending) and clears the cache. The
      store's ranking asks that `child` sit below `id`. */
  function Mount(store: Store, id: Id, prefix: string, child: Id,
                 toolSeparator: Option<string>, resourceSeparator: Option<string>,
                 promptSeparator: Option<string>): (r: Store)
    requires Valid(store) && id in store && child in store && child < id
    ensures Valid(r) && EditedAt(store, r, id)
    ensures r[id].locals == store[id].locals
    ensures var m := NewMount(prefix, child, toolSeparator, resourceSeparator, promptSeparator);
            var ms := store[id].mounts;
            && (FindPrefix(ms, prefix).Some? ==>
                  && |r[id].mounts| == |ms|
                  && r[id].mounts[FindPrefix(ms, prefix).value] == m
                  && forall j :: 0 <= j < |ms| && ms[j].prefix != prefix ==> r[id].mounts[j] == ms[j])
            && (FindPrefix(ms, prefix).None? ==> r[id].mounts == ms + [m])
  {
    var m := NewMount(prefix, child, toolSeparator, resourceSeparator, promptSeparator);
    var ms := PutMount(store[id].mounts, m);
    forall j | 0 <= j < |ms|
      ensures ms[j].server in store && ms[j].server < id
    {
      if ms[j] != m {
        MountsBelowSub(store[id].mounts, [ms[j]], id, store);
      }
    }
    var r := Replace(store, id, store[id].locals, ms);
    assert FindPrefix(store[id].mounts, prefix).None? ==> ms == store[id].mounts + [m];
    r
  }

  /** `unmount`: removes the binding for `prefix` and clears the cache; a
      prefix that is not mounted raises (the KeyError of `dict.pop`) before
      anything changes. */
  function Unmount(store: Store, id: Id, prefix: string): (r: Result<Store, Error>)
    requires Valid(store) && id in store
    ensures r.Failure? <==> forall i :: 0 <= i < |store[id].mounts| ==> store[id].mounts[i].prefix != prefix
    ensures r.Failure? ==> r.error == UnknownMount(prefix)
    ensures r.Success? ==> Valid(r.value) && EditedAt(store, r.value, id)
    ensures r.Success? ==> r.value[id].locals == store[id].locals
    ensures r.Success? ==> |r.value[id].mounts| == |store[id].mounts| - 1
    ensures r.Success? ==> forall j :: 0 <= j < |r.value[id].mounts| ==> r.value[id].mounts[j].prefix != prefix
    ensures r.Success? ==> forall j :: 0 <= j < |store[id].mounts| && store[id].mounts[j].prefix != prefix ==>
                             store[id].mounts[j] in r.value[id].mounts
    ensures r.Success? ==> var ms := store[id].mounts; var i := FindPrefix(ms, prefix).value;
            forall j :: 0 <= j < |r.value[id].mounts| ==> r.value[id].mounts[j] == if j < i then ms[j] else ms[j + 1]
  {
    match RemoveMount(store[id].mounts, prefix)
    case Failure(e) => Failure(e)
    case Success(ms) =>
      MountsBelowSub(store[id].mounts, ms, id, store);
      Success(Replace(store, id, store[id].locals, ms))
  }

  /** One loop of `import_server`: list `cat` at the imported server (through
      its cache, which may fill caches below it) and register every entry at
      `id` under the binding's full prefix. */
  function ImportCategory(store: Store, id: Id, m: MountedServer, cat: Category, now: int): (r: Store)
    requires Valid(store) && id in store && m.server in store
    ensures Valid(r) && LocalsOnlyAt(store, r, id)
    ensures forall c :: c != cat ==> r[id].locals.Get(c) == store[id].locals.Get(c)
    ensures OtherCachesSame(store, r, cat)
  {
    var (listing, s1) := List(store, m.server, cat, now);
    var r := WithLocals(s1, id, s1[id].locals.AddAll(cat, m.PrefixedView(cat, listing)));
    ShapeIsLocalsOnly(store, s1, id);
    LocalsOnlyAtTrans(store, s1, r, id);
    SameCachesOthers(s1, r, cat);
    OtherCachesTrans(store, s1, r, cat);
    r
  }

  /** The loops of `import_server` over `cats`, in order. */
  function ImportAll(store: Store, id: Id, m: MountedServer, cats: seq<Category>, now: int): (r: Store)
    requires Valid(store) && id in store && m.server in store
    ensures Valid(r) && LocalsOnlyAt(store, r, id)
    ensures forall c :: c !in cats ==> r[id].locals.Get(c) == store[id].locals.Get(c)
    decreases |cats|
  {
    if |cats| == 0 then store
    else
      var s1 := ImportCategory(store, id, m, cats[0], now);
      var r := ImportAll(s1, id, m, cats[1..], now);
      LocalsOnlyAtTrans(store, s1, r, id);
      r
  }

  /** The categories `import_server` copies, in the order it copies them. */
  const ImportOrder := [Tools, Resources, Templates, Prompts]

  /** `import_server`: a one-time copy of the imported server's listings into
      this server's own registries, under the prefix and separators (which
      default as for `mount`), followed by `_cache.clear()`. No mount is
      created. */
  function Import(store: Store, id: Id, prefix: string, source: Id,
                  toolSeparator: Option<string>, resourceSeparator: Option<string>,
                  promptSeparator: Option<string>, now: int): (r: Store)
    requires Valid(store) && id in store && source in store
    ensures Valid(r) && LocalsOnlyAt(store, r, id)
    ensures Cleared(r[id].cache)
  {
    var m := NewMount(prefix, source, toolSeparator, resourceSeparator, promptSeparator);
    var s := ImportAll(store, id, m, ImportOrder, now);
    var r := WithCache(s, id, TimedCache.Clear(s[id].cache));
    ShapeIsLocalsOnly(s, r, id);
    LocalsOnlyAtTrans(store, s, r, id);
    r
  }
}

=== FILE: prefixes.dfy ===
/** The two string primitives mount bindings are built from: Python's
    `str.startswith` and `str.removeprefix`. */
module Prefixes {

  /** `s.startswith(p)`. */
  predicate StartsWith(s: string, p: string) {
    |p| <= |s| && s[..|p|] == p
  }

  /** `s.removeprefix(p)`: total, so a string that does not start with `p`
      comes back unchanged. */
  function RemovePrefix(s: string, p: string): (r: string)
    ensures StartsWith(s, p) ==> p + r == s
    ensures !StartsWith(s, p) ==> r == s
  {
    if StartsWith(s, p) then s[|p|..] else s
  }

  /** Prepending `p` always yields a string that starts with `p`, and removing
      it again gives back exactly what was prepended. */
  lemma PrependThenRemove(p: string, k: string)
    ensures StartsWith(p + k, p)
    ensures RemovePrefix(p + k, p) == k
  {
    assert (p + k)[..|p|] == p;
    assert (p + k)[|p|..] == k;
  }

  /** Two prefixes of one string are prefixes of each other: the shorter one
      starts the longer one. */
  lemma CommonStart(s: string, p: string, q: string)
    requires StartsWith(s, p) && StartsWith(s, q) && |p| <= |q|
    ensures StartsWith(q, p)
  {
    assert q[..|p|] == s[..|q|][..|p|];
  }
}

=== FILE: scenarios.dfy ===
/** Small concrete compositions that show the rules at work on named
    servers. */
module Scenarios {
  import opened Wrappers
  import opened Items
  import opened Mounting
  import opened Servers
  import opened Listings
  import opened Dispatching
  import opened Mutations
  import opened Composition
  import TimedCache

  /** A binding with the default separators. */
  function Bind(prefix: string, server: Id): (m: MountedServer)
    ensures m.FullPrefix(Tools) == prefix + "_" && m.FullPrefix(Resources) == prefix + "+"
    ensures m.server == server
  {
    NewMount(prefix, server, None, None, None)
  }

  function WithTools(tools: map<Key, Item>): Locals {
    NoLocals.(tools := tools)
  }

  /** Two bindings whose prefixes overlap: "a" on server 0, which has the
      tool "b_x", and "a_b" on server 1, which has the tool "x". */
  function Overlapping(): (store: Store)
    ensures Valid(store) && 2 in store
  {
    var s := map[0 := Server(WithTools(map["b_x" := 10]), [], 60, map[]),
                 1 := Server(WithTools(map["x" := 20]), [], 60, map[]),
                 2 := Server(NoLocals, [Bind("a", 0), Bind("a_b", 1)], 60, map[])];
    assert s[2].mounts[0].prefix != s[2].mounts[1].prefix;
    s
  }

  /** The precedence asymmetry on overlapping prefixes: "a_b_x" is
      dispatched through the first binding that matches ("a", reaching
      "b_x" on server 0), while the listing shows the entry of the last
      binding that contributes it ("a_b", reaching "x" on server 1). */
  lemma OverlappingPrefixesDisagree()
    ensures Dispatch(Overlapping(), 2, Tools, "a_b_x") == Success(Resolved(0, "b_x", 10))
    ensures "a_b_x" in View(Overlapping(), 2, Tools) && View(Overlapping(), 2, Tools)["a_b_x"] == 20
  {
    var s := Overlapping();
    var a, ab := s[2].mounts[0], s[2].mounts[1];
    assert a.FullPrefix(Tools) + "b_x" == "a_b_x";
    assert ab.FullPrefix(Tools) + "x" == "a_b_x";
    RoundTrip(a, Tools, "b_x");
    RoundTrip(ab, Tools, "x");
    DispatchFirstMatch(s, 2, 0, Tools, "a_b_x");
    ViewPrecedence(s, 1, Tools, "x", 0);
    assert Contributes(s, 2, 1, Tools, "a_b_x");
    ViewPrecedence(s, 2, Tools, "a_b_x", 1);
  }

  /** A server 1 with a "calc" binding to server 0, where the tool "add"
      lives. */
  function Calculator(): (store: Store)
    ensures Valid(store) && 0 in store && 1 in store
  {
    map[0 := Server(WithTools(map["add" := 7]), [], 60, map[]),
        1 := Server(NoLocals, [Bind("calc", 0)], 60, map[])]
  }

  /** "calc_add" is listed at the parent and dispatched to "add" on the
      mounted server; a name without the prefix is not found. */
  lemma CalculatorMount()
    ensures "calc_add" in View(Calculator(), 1, Tools)
    ensures Dispatch(Calculator(), 1, Tools, "calc_add") == Success(Resolved(0, "add", 7))
    ensures Dispatch(Calculator(), 1, Tools, "add") == Failure(NotFound("add"))
  {
    var s := Calculator();
    var m := s[1].mounts[0];
    assert m.FullPrefix(Tools) + "add" == "calc_add";
    RoundTrip(m, Tools, "add");
    DispatchFirstMatch(s, 1, 0, Tools, "calc_add");
    ViewPrecedence(s, 0, Tools, "add", 0);
    assert Contributes(s, 1, 0, Tools, "calc_add");
    ViewKeys(s, 1, Tools, "calc_add");
    assert !m.Matches(Tools, "add");
  }

  /** Under "ext" with the default separators a resource `uri` is listed
      as "ext+" followed by `uri`. */
  lemma ExtResourceName(source: Id, uri: Key, item: Item)
    ensures NewMount("ext", source, None, None, None).PrefixedView(Resources, map[uri := item])
            == map["ext+" + uri := item]
  {
    var m := NewMount("ext", source, None, None, None);
    assert m.FullPrefix(Resources) == "ext+";
    PrefixedSingleton(m, Resources, uri, item);
  }

  /** Importing, under "ext", a server that lists the single resource
      `uri` registers "ext+" followed by `uri` at the importing server
      itself ("weather://forecast" becomes "ext+weather://forecast"). */
  lemma ImportOneResource(store: Store, id: Id, source: Id, uri: Key, item: Item, now: int)
    requires Valid(store) && id in store && source in store && Coherent(store, now)
    requires View(store, source, Resources) == map[uri := item]
    ensures Import(store, id, "ext", source, None, None, None, now)[id].locals.Get(Resources)
            == store[id].locals.Get(Resources) + map["ext+" + uri := item]
  {
    ImportCopies(store, id, "ext", source, None, None, None, now);
    ExtResourceName(source, uri, item);
  }
}

=== FILE: servers.dfy ===
/** The state of a `FastMCP` server (src/fastmcp/server/server.py:178-222)
    as far as composition is concerned, and the store that holds every
    server by identity. */
module Servers {
  import opened Items
  import opened Mounting
  import TimedCache

  /** What a listing call returns: registered key to object. */
  type Listing = map<Key, Item>

  datatype Server = Server(
    locals: Locals,                      // the tool, resource and prompt managers
    mounts: seq<MountedServer>,          // `_mounted_servers` in insertion order
    expiration: int,                     // `cache_expiration_seconds`
    cache: TimedCache.Cache<Category, Listing>)

  type Store = map<Id, Server>

  /** A freshly constructed server: nothing registered, nothing mounted, an
      empty cache. */
  function NewServer(expiration: int): (s: Server)
    ensures forall cat, now :: TimedCache.Get(s.cache, cat, now).None?
    ensures forall cat :: s.locals.Get(cat) == map[]
    ensures |s.mounts| == 0
    ensures s.expiration == expiration
  {
    Server(NoLocals, [], expiration, map[])
  }

  /** `_mounted_servers` is a dict keyed by prefix, so no prefix occurs
      twice. */
  predicate DistinctPrefixes(ms: seq<MountedServer>) {
    forall i, j :: 0 <= i < j < |ms| ==> ms[i].prefix != ms[j].prefix
  }

  /** The modelling restriction that keeps recursion through mounts finite:
      every mounted server is in the store and has a smaller identity than
      the server mounting it. */
  predicate MountsBelow(ms: seq<MountedServer>, id: Id, store: Store) {
    forall i :: 0 <= i < |ms| ==> ms[i].server in store && ms[i].server < id
  }

  predicate Valid(store: Store) {
    forall id {:trigger store[id]} :: id in store ==>
      DistinctPrefixes(store[id].mounts) && MountsBelow(store[id].mounts, id, store)
  }

  /** `b` differs from `a` at most in cache contents and in the registries of
      categories other than `cat`: everything a listing of `cat` reads is the
      same. */
  predicate SameFor(a: Store, b: Store, cat: Category) {
    && a.Keys == b.Keys
    && forall id :: id in a ==> a[id].mounts == b[id].mounts && a[id].locals.Get(cat) == b[id].locals.Get(cat)
  }

  /** `b` differs from `a` at most in cache contents. */
  predicate SameShape(a: Store, b: Store) {
    && a.Keys == b.Keys
    && forall id :: id in a ==> a[id].locals == b[id].locals && a[id].mounts == b[id].mounts
                                && a[id].expiration == b[id].expiration
  }

  /** Validity depends on the mount graph alone. */
  lemma SameMountsValid(a: Store, b: Store)
    requires Valid(a)
    requires a.Keys == b.Keys
    requires forall id :: id in a ==> a[id].mounts == b[id].mounts
    ensures Valid(b)
  {
    forall id | id in b
      ensures DistinctPrefixes(b[id].mounts) && MountsBelow(b[id].mounts, id, b)
    {
      assert a[id].mounts == b[id].mounts;
    }
  }

  /** The store with the cache of `id` replaced: nothing else changes. */
  function WithCache(store: Store, id: Id, c: TimedCache.Cache<Category, Listing>): (r: Store)
    requires id in store
    ensures SameShape(store, r)
    ensures Valid(store) ==> Valid(r)
    ensures r[id].cache == c
    ensures forall x :: x in store && x != id ==> r[x] == store[x]
  {
    var r := store[id := store[id].(cache := c)];
    if Valid(store) then SameMountsValid(store, r); r else r
  }

  lemma SameShapeTrans(a: Store, b: Store, c: Store)
    requires SameShape(a, b) && SameShape(b, c)
    ensures SameShape(a, c)
  {
  }

  /** Every cache entry outside category `cat` is the same in `a` and `b`. */
  ghost predicate OtherCachesSame(a: Store, b: Store, cat: Category) {
    forall x, c :: x in a && x in b && c != cat ==> TimedCache.SameEntry(a[x].cache, b[x].cache, c)
  }

  lemma OtherCachesTrans(a: Store, b: Store, c: Store, cat: Category)
    requires a.Keys == b.Keys == c.Keys
    requires OtherCachesSame(a, b, cat) && OtherCachesSame(b, c, cat)
    ensures OtherCachesSame(a, c, cat)
  {
    forall x, d | x in a && x in c && d != cat
      ensures TimedCache.SameEntry(a[x].cache, c[x].cache, d)
    {
      assert TimedCache.SameEntry(a[x].cache, b[x].cache, d);
      assert TimedCache.SameEntry(b[x].cache, c[x].cache, d);
    }
  }

  lemma WithCacheOthers(store: Store, id: Id, c: TimedCache.Cache<Category, Listing>, cat: Category)
    requires id in store
    requires forall d :: d != cat ==> TimedCache.SameEntry(store[id].cache, c, d)
    ensures OtherCachesSame(store, WithCache(store, id, c), cat)
  {
  }

  /** `b` differs from `a` in caches and in the registries of `id` only. */
  ghost predicate LocalsOnlyAt(a: Store, b: Store, id: Id) {
    && a.Keys == b.Keys
    && forall x :: x in a ==>
         && b[x].mounts == a[x].mounts && b[x].expiration == a[x].expiration
         && (x != id ==> b[x].locals == a[x].locals)
  }

  lemma LocalsOnlyAtTrans(a: Store, b: Store, c: Store, id: Id)
    requires LocalsOnlyAt(a, b, id) && LocalsOnlyAt(b, c, id)
    ensures LocalsOnlyAt(a, c, id)
  {
  }

  lemma ShapeIsLocalsOnly(a: Store, b: Store, id: Id)
    requires SameShape(a, b)
    ensures LocalsOnlyAt(a, b, id)
  {
  }

  /** The store with the registries of `id` replaced: nothing else changes,
      caches included. */
  function WithLocals(store: Store, id: Id, locals: Locals): (r: Store)
    requires id in store
    ensures LocalsOnlyAt(store, r, id)
    ensures Valid(store) ==> Valid(r)
    ensures r[id].locals == locals
    ensures forall x :: x in store ==> r[x].cache == store[x].cache
  {
    var r := store[id := store[id].(locals := locals)];
    if Valid(store) then SameMountsValid(store, r); r else r
  }

  lemma SameCachesOthers(a: Store, b: Store, cat: Category)
    requires a.Keys == b.Keys && forall x :: x in a ==> b[x].cache == a[x].cache
    ensures OtherCachesSame(a, b, cat)
  {
  }
}

=== FILE: timed_cache.dfy ===
/** `TimedCache` (src/fastmcp/server/server.py:130-147): a key to
    (value, expiry) store with lazy expiry. The wall clock is the explicit
    parameter `now`; the sentinel NOT_FOUND is `None`, which keeps a cached
    empty listing (`Some(map[])`) distinguishable from a miss. */
module TimedCache {
  import opened Wrappers

  datatype Entry<V> = Entry(value: V, expires: int)

  type Cache<K(==,!new), V> = map<K, Entry<V>>

  /** `set`: stores `value` with expiry `now + expiration`, overwriting any
      prior entry under `key` and leaving every other key alone. */
  function Set<K(==,!new), V>(c: Cache<K, V>, key: K, value: V, now: int, expiration: int): (r: Cache<K, V>)
    ensures r.Keys == c.Keys + {key}
    ensures r[key] == Entry(value, now + expiration)
    ensures forall k :: k in c && k != key ==> r[k] == c[k]
    ensures forall k :: k != key ==> SameEntry(c, r, k)
  {
    c[key := Entry(value, now + expiration)]
  }

  /** `get`: the stored value iff an entry exists and its expiry is strictly
      later than `now`; NOT_FOUND otherwise. */
  function Get<K(==,!new), V>(c: Cache<K, V>, key: K, now: int): (r: Option<V>)
    ensures r.Some? <==> key in c && c[key].expires > now
    ensures r.Some? ==> r.value == c[key].value
  {
    if key in c && c[key].expires > now then Some(c[key].value) else None
  }

  /** `clear`: afterwards every key reads as NOT_FOUND at every instant. */
  function Clear<K(==,!new), V>(c: Cache<K, V>): (r: Cache<K, V>)
    ensures forall k, now :: Get(r, k, now) == None
  {
    map[]
  }

  /** The two caches hold the same entry (or none) under `key`, so they
      answer `get(key)` alike at every instant. */
  ghost predicate SameEntry<K(!new), V>(c1: Cache<K, V>, c2: Cache<K, V>, key: K) {
    (key in c1 <==> key in c2) && (key in c1 ==> c1[key] == c2[key])
  }

  /** Reading back right after `set`: the value is returned exactly while
      `now` is before the expiry, and no other key's reading changes. */
  lemma GetAfterSet<K(!new), V>(c: Cache<K, V>, key: K, value: V, setAt: int, expiration: int, now: int, other: K)
    requires other != key
    ensures Get(Set(c, key, value, setAt, expiration), key, now)
            == (if now < setAt + expiration then Some(value) else None)
    ensures Get(Set(c, key, value, setAt, expiration), other, now) == Get(c, other, now)
  {
  }

  /** Expiry is final: once an entry reads as NOT_FOUND it keeps doing so at
      every later instant unless it is written again. */
  lemma ExpiredStaysExpired<K(!new), V>(c: Cache<K, V>, key: K, now: int, later: int)
    requires now <= later
    requires Get(c, key, now) == None
    ensures Get(c, key, later) == None
  {
  }
}

=== FILE: wrappers.dfy ===
/** Failure-compatible wrappers used throughout the model: `Option` stands for
    a value that may be absent (the cache's NOT_FOUND sentinel), `Result` for
    an operation that may raise. */
module Wrappers {

  datatype Option<+T> = None | Some(value: T)

  datatype Result<+T, +E> = Success(value: T) | Failure(error: E)
}
